=== FILE: README.md ===
# Caregiver health tracker backend — a Dafny model

This project models the request handlers of the tracker's FastAPI backend. Caregivers use it to record, for the patients they look after:

- medications, which can be added, partially updated and soft-deleted;
- one daily log per patient per day. A log holds medication doses, symptoms, side effects, sleep, mood, water intake, activities, lifestyle flags and notes.

From the last 30 days of logs the server computes the statistics that go into a doctor-ready summary: adherence per active medication, column averages, per-symptom severity statistics, activity and side-effect counts, and lifestyle totals. The summary text is produced by a language model. The server strips whitespace and a Markdown code fence from that reply before parsing it.

The database is an immutable `Store.State`: patients and medications in maps keyed by id, and daily logs in insertion order. Each map also carries the next auto-increment id. Every handler is a pure function from a state and a request to a `Result` (a value or an HTTP error) and, where the handler writes, a new state. The current date is a parameter (`today`). Dates are whole day numbers, so "today minus 30 days" is `today - 30`.

Medication rows carry optional fields, because a partial update may send an explicit null. Such an update is committed, and then the response model rejects the row: the caller gets a 500. Later `get_patient` for that patient and `get_patients` for its caregiver answer 500 as well, because both responses carry the patient's medication rows.

Modules:

- `Wrappers`, `Records`, `Store` (`records.dfy`): the option and result types, the table rows, and the store with its invariant `Valid`. The invariant says keys equal ids, ids are below their counters, and log ids are distinct.
- `Logs` (`logs.dfy`): the log upsert, `get_today_log`, `get_logs`, and field serialisation.
- `Patients` (`patients.dfy`): patient creation with nested medications, patient reads, and adding a medication.
- `Medications` (`medications.dfy`): the ownership guard, the partial update, and deactivation.
- `Adherence` (`adherence.dfy`): `_calculate_adherence`, with reference counts defined directly over the logs.
- `Aggregates` (`aggregates.dfy`): the statistics loop of the summary handler.
- `Summary` (`summary.dfy`): the summary handler up to the model call.
- `Fence` (`fence.dfy`): cleaning of the model's reply.

## Model

| member | source | states |
|---|---|---|
| Store.OwnedPatient | backend/routers/logs.py:30-39 | the patient is returned exactly when it exists and the caller is its caregiver, otherwise a 404 with detail "Patient not found" |
| Adherence.CalculateAdherence | backend/routers/summary.py:19-41 | one entry per medication id passed in; each entry's taken/logged counts equal the number of log entries naming that id (with taken set), taken never exceeds logged, and the percentage is taken/logged·100 or 0 with nothing logged |
| Adherence.InitTallies | backend/routers/summary.py:20-23 | the dict comprehension has exactly the ids of the medications as keys, zeroed, and a later medication with a repeated id supplies the name |
| Adherence.TallyLogs | backend/routers/summary.py:24-32 | folding the logs adds to every tracked id exactly its logged and taken counts; null or empty dose lists and untracked ids add nothing |
| Adherence.Percentage | backend/routers/summary.py:36 | 0 when nothing was logged, otherwise within 0..100 and equal to taken·100/total |
| Adherence.TakenAtMostLogged | backend/routers/summary.py:29-32 | a medication is never counted as taken more often than it was logged |
| Adherence.NameOfDistinct | backend/routers/summary.py:20-23 | with distinct ids every result entry carries its own medication's name |
| Adherence.OneEntryPerMedication | backend/routers/summary.py:33-41 | with distinct ids the result has exactly one entry per medication |
| Adherence.UntrackedLogIgnored | backend/routers/summary.py:24-32 | a log naming no tracked medication leaves the adherence result unchanged |
| Aggregates.Mean | backend/routers/summary.py:130-132 | the mean is absent exactly for an empty list and lies between its minimum and maximum |
| Aggregates.MeanTimesCount | backend/routers/summary.py:130-132 | the mean times the number of values is their sum |
| Aggregates.Present | backend/routers/summary.py:94-100 | the collected values are the non-null column values of the logs: each collected value is some log's, each log's value is collected, there are as many as logs with the column set, their sum is those logs' total, and the list is empty iff every log has the column null |
| Aggregates.Average | backend/routers/summary.py:130-132 | a column average is absent exactly when no log has the column; otherwise it is the total over the logs that have the column divided by their number, and lies between some log's value and another's |
| Aggregates.SymptomTotals | backend/routers/summary.py:102-103 | the grouped severities have exactly the symptom names that occur as keys |
| Aggregates.SymptomTotalsAt | backend/routers/summary.py:102-103 | each name's list is the severities recorded under that name, in log order |
| Aggregates.ScoredIffOccurs | backend/routers/summary.py:102-103 | a name has at least one severity exactly when it occurs in some log |
| Aggregates.StatOf | backend/routers/summary.py:134-141 | entries is the number of scores, max is a score bounding all scores, the average is the sum of the scores divided by their number and lies between the minimum and the maximum |
| Aggregates.SymptomAverages | backend/routers/summary.py:134-141 | there is a statistic for exactly the symptom names that occur |
| Aggregates.SymptomAveragesAt | backend/routers/summary.py:134-141 | each name's statistic describes the severities recorded under that name: their number, their attained maximum, and their average (sum over number) |
| Aggregates.MaxBoundsEverySeverity | backend/routers/summary.py:134-141 | every recorded severity is at most its symptom's reported maximum |
| Aggregates.ActivityCounts | backend/routers/summary.py:105-106 | an activity type is a key iff it occurs, and its count is its number of occurrences, always positive |
| Aggregates.SideEffectCounts | backend/routers/summary.py:108-110 | a (medication name, side effect) pair is present iff it occurs, with its number of occurrences, and every medication name present has at least one occurring side effect |
| Aggregates.Nest | backend/routers/summary.py:90 | the nested counter holds exactly the pairs of the flat counter, with the same counts, and has no medication name without a pair |
| Aggregates.LifestyleTotalsOf | backend/routers/summary.py:112-115 | each flag's total is the number of logs with that flag set, never more than the number of logs |
| Aggregates.DefaultLifestyleCountsNothing | backend/routers/summary.py:112-115 | a log whose lifestyle flags are all false adds nothing to the totals |
| Fence.Strip | backend/routers/summary.py:220 | the result neither starts nor ends with whitespace and sits in the input at a position where everything before it and everything after it is whitespace |
| Fence.StripIsInfix | backend/routers/summary.py:220 | the stripped text is a contiguous piece of the input |
| Fence.StripUnique | backend/routers/summary.py:220 | a text without whitespace at its ends, placed in the input with only whitespace around it, is the stripped input: the result of stripping is determined by those two facts |
| Fence.StripIdempotent | backend/routers/summary.py:220 | stripping twice is stripping once |
| Fence.FirstNewline | backend/routers/summary.py:224 | the position of the first newline: a newline with none before it, or -1 exactly when the text has no newline |
| Fence.AfterFirstLine | backend/routers/summary.py:224 | text without a newline is kept whole; otherwise the result is what follows a newline-free first line and its newline |
| Fence.StripFences | backend/routers/summary.py:223-226 | text not opening with a fence is kept; fenced text loses its first line, and when the rest closes with a fence, that fence is cut off and what precedes it is stripped |
| Fence.BeforeClosingFence | backend/routers/summary.py:226 | for text ending in a fence, what precedes that fence, so that adding the fence back gives the text |
| Fence.StripFencesIsInfix | backend/routers/summary.py:223-226 | whatever the fences, the result is a contiguous piece of the input |
| Fence.CleanReply | backend/routers/summary.py:220-226 | the reply is stripped, then unfenced in all three cases: no opening fence keeps the stripped text, an unclosed fence drops the first line, a closed fence keeps the stripped text between the first line and the closing fence |
| Fence.CleanReplyIsInfix | backend/routers/summary.py:220-226 | the cleaned reply is a contiguous piece of the raw reply |
| Fence.FencedRoundTrip | backend/routers/summary.py:222-226 | a trimmed body wrapped in a fence with a language tag comes back exactly |
| Fence.FencedContentRoundTrip | backend/routers/summary.py:222-226 | any content between an opening line with a newline-free tag and a closing fence comes back stripped |
| Fence.CleanFencedReply | backend/routers/summary.py:220-226 | a fenced reply with any whitespace around it is cleaned to the stripped content of the block |
| Logs.SerializeField | backend/routers/logs.py:14-20 | lists are dumped element-wise with their length kept, a model is dumped, plain values pass through |
| Logs.SerializeFieldIdempotent | backend/routers/logs.py:14-20 | serialising an already serialised field changes nothing |
| Logs.ContentOf | backend/routers/logs.py:41-51 | the stored content carries every field of the request, list fields as lists |
| Logs.FindLog | backend/routers/logs.py:54-61 | the first log with the patient and date, or none exactly when no log has them |
| Logs.CreateOrUpdateLog | backend/routers/logs.py:23-79 | 404 and no change for a patient the caller does not own; otherwise the returned log is stored, has the requested key and content, and patients and medications are untouched |
| Logs.UpsertOverwritesExisting | backend/routers/logs.py:63-68 | an existing log keeps its id, patient, logger and date, only its content is replaced, no other log changes and none is added |
| Logs.UpsertAppendsNew | backend/routers/logs.py:70-79 | without an existing log exactly one log is appended, logged by the caller, with a fresh id |
| Logs.EmptyBodyClearsContent | backend/routers/logs.py:41-68 | an update whose body omits every field clears the stored content to empty lists and nulls |
| Logs.UpsertPreservesInvariants | backend/routers/logs.py:53-79 | the upsert keeps at most one log per patient and date, and the store invariant |
| Logs.UpsertThenReadToday | backend/routers/logs.py:82-107 | a log written for a date is what the today-read returns for that date |
| Logs.GetTodayLog | backend/routers/logs.py:82-107 | 404 for a patient the caller does not own; otherwise a stored log of that patient dated today, or null exactly when there is none |
| Logs.Window | backend/routers/logs.py:127-133 | exactly the patient's logs dated on or after the cut-off, each as often as stored |
| Logs.InsertByDate | backend/routers/logs.py:134 | inserting one log into a newest-first list keeps it newest first and adds exactly that log |
| Logs.SortByDateDesc | backend/routers/logs.py:134 | the logs newest first, as a permutation of the input |
| Logs.GetLogs | backend/routers/logs.py:110-136 | 404 for a patient the caller does not own; otherwise exactly the patient's logs of the last 90 days, each as often as stored, newest first |
| Logs.LogEndpointsOwnershipGuarded | backend/routers/logs.py:29-39 | for a patient the caller does not own every log endpoint answers 404 and nothing is written |
| Patients.NewMedication | backend/routers/patients.py:93-99 | a new medication row carries the request's four fields, the patient id, and is active |
| Patients.AddMedications | backend/routers/patients.py:29-37 | one new row per request entry, in order, under consecutive ids; every other row kept |
| Patients.CreatePatient | backend/routers/patients.py:13-41 | the new patient gets the next id, the request's fields and the caller as caregiver; one new row per request entry is written to the medications table under consecutive ids; the response is the stored patient with its stored medications; no log changes |
| Patients.CreatePatientMedications | backend/routers/patients.py:29-39 | when no row belongs to the new patient id, the rows the new patient owns in the stored table, which are also the response's medications, are exactly one new active row per request entry, in order, under consecutive ids |
| Patients.CreatePatientKeepsValid | backend/routers/patients.py:13-41 | creating a patient changes no existing medication and keeps a valid store valid |
| Patients.NullMedicationsAddNone | backend/routers/patients.py:29 | a null and an empty medication list both add no medication |
| Patients.GetPatients | backend/routers/patients.py:44-53 | a 500 when some patient of the caller has a medication row with a null field; otherwise exactly the caller's patients, each with all its medications |
| Patients.GetPatient | backend/routers/patients.py:56-72 | 404 exactly when the patient is missing or someone else's, a 500 when one of its medication rows has a null field, otherwise the patient with its medications |
| Patients.GetPatientAgreesWithList | backend/routers/patients.py:44-72 | while the list read succeeds, a patient is readable alone exactly when it is in the caller's list, with the same content; a 500 on the single read means a 500 on the list |
| Patients.AddMedication | backend/routers/patients.py:75-103 | 404 and no change for a patient the caller does not own; otherwise one new active row under the next id |
| Patients.AddMedicationKeepsExisting | backend/routers/patients.py:93-103 | existing medications are kept, the count grows by one exactly on success, the store stays valid |
| Medications.OwnedMedication | backend/routers/medications.py:12-25 | found exactly when the medication exists and its patient is one the caller looks after, otherwise 404 |
| Medications.ApplyUpdate | backend/routers/medications.py:36-37 | fields left out keep their value, fields sent (null included) take the sent value, id and patient never change |
| Medications.EmptyUpdateIsIdentity | backend/routers/medications.py:36-37 | an update sending no field changes nothing |
| Medications.UpdateIdempotent | backend/routers/medications.py:36-37 | repeating an update has no further effect |
| Medications.UpdateMedication | backend/routers/medications.py:28-40 | 404 and no change unless the caller owns the medication; otherwise only that row is rewritten and committed, and the rewritten row is returned exactly when every field is non-null, a 500 otherwise |
| Medications.NullUpdateCommitsThenFails | backend/routers/medications.py:36-40 | an owned update sending an explicit null is stored, yet the handler answers 500 because the stored row has a null field |
| Medications.NullUpdateBreaksPatientReads | backend/routers/medications.py:36-40 | after such an update, reading the patient and listing the caller's patients both answer 500 |
| Medications.NonNullUpdateSucceeds | backend/routers/medications.py:28-40 | an owned update sending no null to a complete row returns the updated row |
| Medications.UpdateTouchesOnlyAddressed | backend/routers/medications.py:28-40 | no other medication, patient or log changes, ownership is kept, the store stays valid |
| Medications.DeactivateMedication | backend/routers/medications.py:43-52 | 404 and no change unless owned; otherwise the row is kept with active false and the confirmation message is returned |
| Medications.DeactivateIsUpdateOfActive | backend/routers/medications.py:43-52 | deactivation leaves the same store as an update sending only active false, succeeds exactly when the caller owns the medication, and succeeds whenever that update does |
| Medications.DeactivateIdempotent | backend/routers/medications.py:43-52 | deactivating twice is deactivating once |
| Summary.RecentLogs | backend/routers/summary.py:61-70 | exactly the patient's logs dated on or after today − 30, each as often as stored, oldest first |
| Summary.RecentLogsEmptyIff | backend/routers/summary.py:72-73 | the window is empty exactly when the patient has no log on or after today − 30 |
| Summary.WindowIgnoresAppendOutside | backend/routers/summary.py:62-70 | a log of another patient or older than the cut-off does not enter the window |
| Summary.ActiveMedications | backend/routers/summary.py:75-82 | only active medications of the patient; in a valid store exactly those, once each, in id order |
| Summary.StatsOf | backend/routers/summary.py:84-141 | the statistics of a window: its number of logs; per medication id its name, logged and taken counts and their percentage; each column average as total over count (none when no log has the column); a description of each occurring symptom's severities; and the occurrence counts of activities, of each (medication, side effect) pair with no medication left without a pair, and of lifestyle flags |
| Summary.GenerateSummaryStats | backend/routers/summary.py:50-141 | 404 for a patient not owned, 404 for an empty window, otherwise the statistics of the window against the active medications with the window's size as log count |
| Summary.AdherenceOfActive | backend/routers/summary.py:84 | adherence against the active medications has exactly the active ids as keys, each under its own name |
| Summary.SummaryAdherenceCoversActive | backend/routers/summary.py:75-84 | the summary reports adherence for exactly the active medications, counting the window's entries for each |
| Summary.DeactivatedMedicationLeavesSummary | backend/routers/summary.py:79 | after the deactivation handler runs, the deactivated medication has no adherence entry in the patient's summary |
| Summary.DeactivateLeavesActive | backend/routers/summary.py:75-82 | after the caller deactivates their medication, the store stays valid and the medication is no longer among its patient's active medications |
| Summary.SummaryIgnoresLogOutsideWindow | backend/routers/summary.py:62-70 | adding a log of another patient or one older than the window does not change the summary |
| Summary.SummaryCountsWindow | backend/routers/summary.py:154 | the reported log count is the number of logs in the window |

## Left out

- The language-model call, the system and user prompt text, and the API-key check that answers 500 are not modelled. They are I/O and string formatting. Only the reply cleaning before parsing is modelled, in `Fence`.
- JSON parsing of the reply, the 500 answer when parsing fails, and the `adherence_data` attachment with string keys are not modelled. A JSON parser is outside this model.
- Adherence.Percentage: the source rounds to one decimal with `round(..., 1)`. The model keeps the exact quotient, because floating-point rounding is not modelled.
- Aggregates.Mean: the averages are exact real quotients without `round(..., 1)`, for the same reason. Sleep hours and water intake are reals, not floats.
- Aggregates.StatOf: the symptom average is unrounded, like the other averages.
- Summary.StatsOf: its averages and adherence percentages are the unrounded values described above.
- Lifestyle totals are kept as a record of four counters. The source's dict has a key only for a flag counted at least once. A zero counter here stands for a missing key.
- The order among logs of the same date, in `get_logs` and in the summary window, is left to the database. The model fixes one order. No statistic depends on it.
- The summary's active-medication query (backend/routers/summary.py:75-82) has no `order_by`, so the database chooses the order. `Summary.ActiveMedications` returns them in id order. No statistic depends on it: adherence is keyed by id.
- The order of medications in a patient response is not modelled: they are a map keyed by id.
- `created_at` timestamps and the clock are not modelled. The current date is the `today` parameter.
- Authentication (`auth.py`, the JWT and the current-user dependency) is not part of this model. The caller is an integer user id.
- Application start-up (`main.py`), SQLAlchemy sessions and commits, and pydantic request validation are left out. Requests are modelled as already-validated values, and a failed validation never reaches a handler. Of the response validation only one case is modelled: a medication row with a null field, which `MedicationResponse` (backend/schemas.py:59-68) rejects with a 500.
- Every handler is modelled as one atomic step. The source runs handlers concurrently in a thread pool, and the log upsert (backend/routers/logs.py:54-79) reads and then inserts, while backend/models.py:56-87 declares no unique constraint on patient and date. Two concurrent first writes for the same day could therefore both insert. `Logs.UpsertPreservesInvariants` (at most one log per patient and date) holds only for requests that are handled one at a time.
- Stored log content is modelled as typed records (`Records.LogContent`), not as the JSON the columns hold. `Logs.SerializeField` models the dump of one request field on its own; `Logs.ContentOf` stores the request's values directly, so the JSON encoding and decoding round trip is not modelled.
- The `log_entries` list and the prompt's medication lines feed only the prompt text, so they are left out with it.

=== FILE: adherence.dfy ===
/**
 * Per-medication adherence over a list of daily logs: every `medications_taken`
 * entry naming a tracked medication is one logged dose, and it is a taken dose
 * when its `taken` flag is set.
 */
module Adherence {
  import opened Wrappers
  import opened Records

  /** The running counts kept per medication while the logs are folded. */
  datatype Tally = Tally(name: Option<string>, taken: nat, total: nat)

  /** The per-medication result: percentage of logged doses taken, and the two counts. */
  datatype Stat = Stat(name: Option<string>, percentage: real, daysTaken: nat, daysLogged: nat)

  /** The medication entries of one log; a null list contributes nothing. */
  function Entries(log: DailyLog): seq<MedicationTaken>
  {
    OrEmpty(log.content.medicationsTaken)
  }

  // Reference counts, defined directly over the logs.

  function CountLoggedIn(es: seq<MedicationTaken>, mid: int): nat
  {
    if |es| == 0 then 0
    else (if es[0].medicationId == mid then 1 else 0) + CountLoggedIn(es[1..], mid)
  }

  function CountTakenIn(es: seq<MedicationTaken>, mid: int): nat
  {
    if |es| == 0 then 0
    else (if es[0].medicationId == mid && es[0].taken then 1 else 0) + CountTakenIn(es[1..], mid)
  }

  /** The number of entries naming `mid`, over all logs, repeats within a log included. */
  function CountLogged(logs: seq<DailyLog>, mid: int): nat
  {
    if |logs| == 0 then 0 else CountLoggedIn(Entries(logs[0]), mid) + CountLogged(logs[1..], mid)
  }

  /** The number of entries naming `mid` whose `taken` flag is set. */
  function CountTaken(logs: seq<DailyLog>, mid: int): nat
  {
    if |logs| == 0 then 0 else CountTakenIn(Entries(logs[0]), mid) + CountTaken(logs[1..], mid)
  }

  /** The set of ids of the medications passed in. */
  function Ids(meds: seq<Medication>): set<int>
  {
    set m | m in meds :: m.id
  }

  /** The name of the last medication in the list carrying id `mid`. */
  function NameOf(meds: seq<Medication>, mid: int): Option<string>
    requires mid in Ids(meds)
  {
    var last := meds[|meds| - 1];
    if last.id == mid then last.name
    else
      assert mid in Ids(meds[..|meds| - 1]) by {
        var m :| m in meds && m.id == mid;
        assert m in meds[..|meds| - 1];
      }
      NameOf(meds[..|meds| - 1], mid)
  }

  // The fold as the source performs it.

  /** One zeroed tally per medication; a later medication with the same id replaces an earlier one. */
  function InitTallies(meds: seq<Medication>): (m: map<int, Tally>)
    ensures m.Keys == Ids(meds)
    ensures forall mid :: mid in m ==> m[mid] == Tally(NameOf(meds, mid), 0, 0)
  {
    if |meds| == 0 then map[]
    else
      var prefix := meds[..|meds| - 1];
      var last := meds[|meds| - 1];
      assert meds == prefix + [last];
      InitTallies(prefix)[last.id := Tally(last.name, 0, 0)]
  }

  /** Count one entry: only entries naming a tracked medication are counted. */
  function TallyEntry(m: map<int, Tally>, e: MedicationTaken): map<int, Tally>
  {
    if e.medicationId in m then
      var t := m[e.medicationId];
      m[e.medicationId := Tally(t.name, t.taken + (if e.taken then 1 else 0), t.total + 1)]
    else m
  }

  function TallyEntries(m: map<int, Tally>, es: seq<MedicationTaken>): (r: map<int, Tally>)
    ensures r.Keys == m.Keys
    ensures forall mid :: mid in r ==>
      && r[mid].name == m[mid].name
      && r[mid].taken == m[mid].taken + CountTakenIn(es, mid)
      && r[mid].total == m[mid].total + CountLoggedIn(es, mid)
  {
    if |es| == 0 then m else TallyEntries(TallyEntry(m, es[0]), es[1..])
  }

  function TallyLogs(m: map<int, Tally>, logs: seq<DailyLog>): (r: map<int, Tally>)
    ensures r.Keys == m.Keys
    ensures forall mid :: mid in r ==>
      && r[mid].name == m[mid].name
      && r[mid].taken == m[mid].taken + CountTaken(logs, mid)
      && r[mid].total == m[mid].total + CountLogged(logs, mid)
  {
    if |logs| == 0 then m else TallyLogs(TallyEntries(m, Entries(logs[0])), logs[1..])
  }

  /** Taken/total as a percentage; zero when nothing was logged. Rounding is not modelled. */
  function Percentage(taken: nat, total: nat): (p: real)
    requires taken <= total
    ensures total == 0 ==> p == 0.0
    ensures 0.0 <= p <= 100.0
    ensures total > 0 ==> p * (total as real) == (taken as real) * 100.0
  {
    if total == 0 then 0.0
    else
      assert (taken as real) / (total as real) <= 1.0;
      (taken as real) / (total as real) * 100.0
  }

  lemma {:induction false} TakenInAtMostLoggedIn(es: seq<MedicationTaken>, mid: int)
    ensures CountTakenIn(es, mid) <= CountLoggedIn(es, mid)
    decreases |es|
  {
    if |es| > 0 {
      TakenInAtMostLoggedIn(es[1..], mid);
    }
  }

  /** No medication is counted as taken more often than it was logged. */
  lemma {:induction false} TakenAtMostLogged(logs: seq<DailyLog>, mid: int)
    ensures CountTaken(logs, mid) <= CountLogged(logs, mid)
    decreases |logs|
  {
    if |logs| > 0 {
      TakenInAtMostLoggedIn(Entries(logs[0]), mid);
      TakenAtMostLogged(logs[1..], mid);
    }
  }

  /** The result entry for one medication, from its final tally. */
  function ToStat(t: Tally): (st: Stat)
    requires t.taken <= t.total
    ensures st.name == t.name && st.daysTaken == t.taken && st.daysLogged == t.total
    ensures st.percentage == Percentage(t.taken, t.total)
  {
    Stat(t.name, Percentage(t.taken, t.total), t.taken, t.total)
  }

  /**
   * One entry per medication passed in, keyed by its id and named after it; each
   * entry's counts are the reference counts over all logs, taken never exceeding
   * logged, and its percentage is the `Percentage` of the two.
   */
  function CalculateAdherence(logs: seq<DailyLog>, meds: seq<Medication>): (r: map<int, Stat>)
    ensures r.Keys == Ids(meds)
    ensures forall mid :: mid in r ==>
      && r[mid].name == NameOf(meds, mid)
      && r[mid].daysLogged == CountLogged(logs, mid)
      && r[mid].daysTaken == CountTaken(logs, mid)
    ensures forall mid :: mid in r ==>
      && r[mid].daysTaken <= r[mid].daysLogged
      && r[mid].percentage == Percentage(r[mid].daysTaken, r[mid].daysLogged)
  {
    var tallies := TallyLogs(InitTallies(meds), logs);
    assert forall mid :: mid in tallies ==> tallies[mid].taken <= tallies[mid].total by {
      forall mid | mid in tallies ensures tallies[mid].taken <= tallies[mid].total {
        TakenAtMostLogged(logs, mid);
      }
    }
    map mid | mid in tallies :: ToStat(tallies[mid])
  }

  lemma {:induction false} DistinctIdsCount(meds: seq<Medication>)
    requires forall i, j :: 0 <= i < j < |meds| ==> meds[i].id != meds[j].id
    ensures |Ids(meds)| == |meds|
    decreases |meds|
  {
    if |meds| > 0 {
      var prefix := meds[..|meds| - 1];
      var last := meds[|meds| - 1];
      assert meds == prefix + [last];
      DistinctIdsCount(prefix);
      assert Ids(meds) == Ids(prefix) + {last.id};
      assert last.id !in Ids(prefix);
    }
  }

  /** With distinct ids, every medication's entry carries that medication's own name. */
  lemma {:induction false} NameOfDistinct(meds: seq<Medication>, k: int)
    requires forall i, j :: 0 <= i < j < |meds| ==> meds[i].id != meds[j].id
    requires 0 <= k < |meds|
    ensures meds[k].id in Ids(meds) && NameOf(meds, meds[k].id) == meds[k].name
    decreases |meds|
  {
    assert meds[k] in meds;
    if k < |meds| - 1 {
      var prefix := meds[..|meds| - 1];
      assert prefix[k] == meds[k];
      NameOfDistinct(prefix, k);
    }
  }

  /** With distinct ids there is exactly one result entry per medication. */
  lemma {:induction false} OneEntryPerMedication(logs: seq<DailyLog>, meds: seq<Medication>)
    requires forall i, j :: 0 <= i < j < |meds| ==> meds[i].id != meds[j].id
    ensures |CalculateAdherence(logs, meds)| == |meds|
  {
    DistinctIdsCount(meds);
    assert CalculateAdherence(logs, meds).Keys == Ids(meds);
  }

  lemma {:induction false} CountLoggedAppend(logs: seq<DailyLog>, log: DailyLog, mid: int)
    ensures CountLogged(logs + [log], mid) == CountLogged(logs, mid) + CountLoggedIn(Entries(log), mid)
    ensures CountTaken(logs + [log], mid) == CountTaken(logs, mid) + CountTakenIn(Entries(log), mid)
    decreases |logs|
  {
    if |logs| == 0 {
      assert logs + [log] == [log];
      assert [log][1..] == [];
    } else {
      assert (logs + [log])[1..] == logs[1..] + [log];
      CountLoggedAppend(logs[1..], log, mid);
    }
  }

  lemma {:induction false} UntrackedEntriesCountNothing(es: seq<MedicationTaken>, mid: int)
    requires forall k :: 0 <= k < |es| ==> es[k].medicationId != mid
    ensures CountLoggedIn(es, mid) == 0 && CountTakenIn(es, mid) == 0
    decreases |es|
  {
    if |es| > 0 {
      UntrackedEntriesCountNothing(es[1..], mid);
    }
  }

  /**
   * A log whose entries name no medication passed in (in particular, a log whose
   * `medications_taken` is null or empty) leaves the adherence result unchanged.
   */
  lemma {:induction false} UntrackedLogIgnored(logs: seq<DailyLog>, meds: seq<Medication>, log: DailyLog)
    requires forall k :: 0 <= k < |Entries(log)| ==> Entries(log)[k].medicationId !in Ids(meds)
    ensures CalculateAdherence(logs + [log], meds) == CalculateAdherence(logs, meds)
  {
    var a := CalculateAdherence(logs + [log], meds);
    var b := CalculateAdherence(logs, meds);
    forall mid | mid in a
      ensures a[mid] == b[mid]
    {
      UntrackedLogCountsNothing(logs, log, mid);
    }
    assert a == b;
  }

  lemma {:induction false} UntrackedLogCountsNothing(logs: seq<DailyLog>, log: DailyLog, mid: int)
    requires forall k :: 0 <= k < |Entries(log)| ==> Entries(log)[k].medicationId != mid
    ensures CountLogged(logs + [log], mid) == CountLogged(logs, mid)
    ensures CountTaken(logs + [log], mid) == CountTaken(logs, mid)
  {
    CountLoggedAppend(logs, log, mid);
    UntrackedEntriesCountNothing(Entries(log), mid);
  }
}

=== FILE: aggregates.dfy ===
/**
 * The statistics folded out of a list of daily logs before a summary is
 * requested: averages of the nullable numeric columns, per-symptom severity
 * statistics, activity and side-effect occurrence counts, lifestyle totals.
 * Floating-point values are exact reals and `round(..., 1)` is not applied.
 */
module Aggregates {
  import opened Wrappers
  import opened Records

  // ---------------------------------------------------------------------------
  // Sums, extremes and means of real sequences

  function Sum(xs: seq<real>): real
  {
    if |xs| == 0 then 0.0 else xs[0] + Sum(xs[1..])
  }

  function MinOf(xs: seq<real>): (m: real)
    requires |xs| > 0
    ensures m in xs
    ensures forall x :: x in xs ==> m <= x
  {
    if |xs| == 1 then xs[0]
    else
      var rest := MinOf(xs[1..]);
      assert forall x :: x in xs ==> x == xs[0] || x in xs[1..];
      if xs[0] <= rest then xs[0] else rest
  }

  function MaxOf(xs: seq<real>): (m: real)
    requires |xs| > 0
    ensures m in xs
    ensures forall x :: x in xs ==> x <= m
  {
    if |xs| == 1 then xs[0]
    else
      var rest := MaxOf(xs[1..]);
      assert forall x :: x in xs ==> x == xs[0] || x in xs[1..];
      if xs[0] >= rest then xs[0] else rest
  }

  lemma {:induction false} SumAtLeast(xs: seq<real>, c: real)
    requires forall x :: x in xs ==> c <= x
    ensures (|xs| as real) * c <= Sum(xs)
    decreases |xs|
  {
    if |xs| > 0 {
      assert forall x :: x in xs[1..] ==> x in xs;
      assert xs[0] in xs;
      SumAtLeast(xs[1..], c);
      assert Sum(xs) == xs[0] + Sum(xs[1..]);
      assert (|xs| as real) * c == c + ((|xs| - 1) as real) * c;
    }
  }

  lemma {:induction false} SumAtMost(xs: seq<real>, c: real)
    requires forall x :: x in xs ==> x <= c
    ensures Sum(xs) <= (|xs| as real) * c
    decreases |xs|
  {
    if |xs| > 0 {
      assert forall x :: x in xs[1..] ==> x in xs;
      assert xs[0] in xs;
      SumAtMost(xs[1..], c);
      assert Sum(xs) == xs[0] + Sum(xs[1..]);
      assert (|xs| as real) * c == c + ((|xs| - 1) as real) * c;
    }
  }

  lemma {:induction false} DivisionBetween(s: real, n: real, lo: real, hi: real)
    requires n > 0.0 && n * lo <= s <= n * hi
    ensures lo <= s / n <= hi
  {
    assert (s / n) * n == s;
  }

  /** The arithmetic mean; `None` exactly for the empty sequence, otherwise between the extremes. */
  function Mean(xs: seq<real>): (r: Option<real>)
    ensures r.None? <==> |xs| == 0
    ensures r.Some? ==> MinOf(xs) <= r.value <= MaxOf(xs)
  {
    if |xs| == 0 then None
    else
      var n := |xs| as real;
      SumAtLeast(xs, MinOf(xs));
      SumAtMost(xs, MaxOf(xs));
      DivisionBetween(Sum(xs), n, MinOf(xs), MaxOf(xs));
      Some(Sum(xs) / n)
  }

  /** The mean is the value whose `|xs|` copies add up to the sum. */
  lemma {:induction false} MeanTimesCount(xs: seq<real>)
    requires |xs| > 0
    ensures Mean(xs).value * (|xs| as real) == Sum(xs)
  {
    var n := |xs| as real;
    var total := Sum(xs);
    assert Mean(xs).value == total / n;
    DivisionCancels(total, n);
  }

  lemma {:induction false} DivisionCancels(s: real, n: real)
    requires n != 0.0
    ensures (s / n) * n == s
  {
  }

  // ---------------------------------------------------------------------------
  // Averages of the nullable numeric columns

  /** The three averaged columns: sleep hours, mood score and water intake. */
  datatype Column = SleepHours | MoodScore | WaterIntake

  /** A column's value in one log, as a real; `None` when the column is null. */
  function ValueOf(c: LogContent, col: Column): Option<real>
  {
    match col
    case SleepHours => c.sleepHours
    case MoodScore => if c.moodScore.Some? then Some(c.moodScore.value as real) else None
    case WaterIntake => c.waterIntakeOz
  }

  /** The number of logs in which the column is set. */
  function CountSet(logs: seq<DailyLog>, col: Column): nat
  {
    if |logs| == 0 then 0
    else (if ValueOf(logs[0].content, col).Some? then 1 else 0) + CountSet(logs[1..], col)
  }

  /** The sum of the column over the logs in which it is set. */
  function TotalSet(logs: seq<DailyLog>, col: Column): real
  {
    if |logs| == 0 then 0.0
    else (match ValueOf(logs[0].content, col) case Some(v) => v case None => 0.0) + TotalSet(logs[1..], col)
  }

  lemma {:induction false} SumAppend(a: seq<real>, b: seq<real>)
    ensures Sum(a + b) == Sum(a) + Sum(b)
    decreases |a|
  {
    if |a| > 0 {
      assert (a + b)[1..] == a[1..] + b;
      SumAppend(a[1..], b);
    } else {
      assert a + b == b;
    }
  }

  /**
   * The non-null values of a column, in log order: one per log that has the
   * column set, adding up to the column's total over those logs.
   */
  function Present(logs: seq<DailyLog>, col: Column): (xs: seq<real>)
    ensures |xs| <= |logs|
    ensures |xs| == CountSet(logs, col)
    ensures Sum(xs) == TotalSet(logs, col)
    ensures |xs| == 0 <==> forall i :: 0 <= i < |logs| ==> ValueOf(logs[i].content, col).None?
    ensures forall x :: x in xs ==> exists i :: 0 <= i < |logs| && ValueOf(logs[i].content, col) == Some(x)
    ensures forall i :: 0 <= i < |logs| && ValueOf(logs[i].content, col).Some? ==>
      ValueOf(logs[i].content, col).value in xs
  {
    if |logs| == 0 then []
    else
      var head := match ValueOf(logs[0].content, col) case Some(v) => [v] case None => [];
      var rest := Present(logs[1..], col);
      assert forall i :: 1 <= i < |logs| ==> logs[i] == logs[1..][i - 1];
      SumAppend(head, rest);
      head + rest
  }

  /**
   * The average of a column over the logs that have it: `None` exactly when no
   * log has the column, otherwise the column's total over those logs divided
   * by their number, a value some log's value does not exceed and some log's
   * value is not below.
   */
  function Average(logs: seq<DailyLog>, col: Column): (r: Option<real>)
    ensures r.None? <==> forall i :: 0 <= i < |logs| ==> ValueOf(logs[i].content, col).None?
    ensures r.Some? ==> CountSet(logs, col) > 0 && r.value == TotalSet(logs, col) / (CountSet(logs, col) as real)
    ensures r.Some? ==> exists i :: 0 <= i < |logs| && ValueOf(logs[i].content, col).Some?
                                   && ValueOf(logs[i].content, col).value <= r.value
    ensures r.Some? ==> exists i :: 0 <= i < |logs| && ValueOf(logs[i].content, col).Some?
                                   && r.value <= ValueOf(logs[i].content, col).value
  {
    var xs := Present(logs, col);
    var r := Mean(xs);
    if r.Some? then
      assert MinOf(xs) in xs && MaxOf(xs) in xs;
      r
    else r
  }

  // ---------------------------------------------------------------------------
  // Symptom severities

  function SymptomsOf(log: DailyLog): seq<Symptom>
  {
    OrEmpty(log.content.symptoms)
  }

  /** The severities of the entries called `name`, in order. */
  function SeveritiesNamed(ss: seq<Symptom>, name: string): seq<int>
  {
    if |ss| == 0 then []
    else (if ss[0].name == name then [ss[0].severity] else []) + SeveritiesNamed(ss[1..], name)
  }

  /** Every severity recorded for `name`, over all logs in order. */
  function Scores(logs: seq<DailyLog>, name: string): seq<int>
  {
    if |logs| == 0 then [] else SeveritiesNamed(SymptomsOf(logs[0]), name) + Scores(logs[1..], name)
  }

  /** The names of a log's symptom entries. */
  function NamesOf(ss: seq<Symptom>): set<string>
  {
    if |ss| == 0 then {} else {ss[0].name} + NamesOf(ss[1..])
  }

  /** The symptom names that occur in some log. */
  function SymptomNames(logs: seq<DailyLog>): set<string>
  {
    if |logs| == 0 then {} else NamesOf(SymptomsOf(logs[0])) + SymptomNames(logs[1..])
  }

  lemma {:induction false} NamedIffListed(ss: seq<Symptom>, n: string)
    ensures |SeveritiesNamed(ss, n)| > 0 <==> n in NamesOf(ss)
    decreases |ss|
  {
    if |ss| > 0 {
      NamedIffListed(ss[1..], n);
    }
  }

  /** A name has scores exactly when it occurs in some log. */
  lemma {:induction false} ScoredIffOccurs(logs: seq<DailyLog>, n: string)
    ensures |Scores(logs, n)| > 0 <==> n in SymptomNames(logs)
    decreases |logs|
  {
    if |logs| > 0 {
      NamedIffListed(SymptomsOf(logs[0]), n);
      ScoredIffOccurs(logs[1..], n);
    }
  }

  function Lookup(m: map<string, seq<int>>, name: string): seq<int>
  {
    if name in m then m[name] else []
  }

  /** The source's `symptom_totals[name].append(severity)` for one entry. */
  function Append(m: map<string, seq<int>>, s: Symptom): map<string, seq<int>>
  {
    m[s.name := Lookup(m, s.name) + [s.severity]]
  }

  /** One log's entries appended in order; the names it mentions become keys. */
  function AddSymptoms(m: map<string, seq<int>>, ss: seq<Symptom>): (r: map<string, seq<int>>)
    ensures r.Keys == m.Keys + NamesOf(ss)
    decreases |ss|
  {
    if |ss| == 0 then m
    else
      AddSymptoms(Append(m, ss[0]), ss[1..])
  }

  /** After one log, each name's list has grown by exactly that log's severities for it. */
  lemma {:induction false} AddSymptomsAt(m: map<string, seq<int>>, ss: seq<Symptom>, n: string)
    ensures Lookup(AddSymptoms(m, ss), n) == Lookup(m, n) + SeveritiesNamed(ss, n)
    decreases |ss|
  {
    if |ss| > 0 {
      var m' := Append(m, ss[0]);
      AddSymptomsAt(m', ss[1..], n);
      var rest := SeveritiesNamed(ss[1..], n);
      if n == ss[0].name {
        assert Lookup(m', n) == Lookup(m, n) + [ss[0].severity];
        assert (Lookup(m, n) + [ss[0].severity]) + rest == Lookup(m, n) + ([ss[0].severity] + rest);
      } else {
        assert Lookup(m', n) == Lookup(m, n);
        assert SeveritiesNamed(ss, n) == rest;
      }
    }
  }

  /** The source's `symptom_totals`, folded over the logs; its keys are the names that occur. */
  function SymptomTotals(m: map<string, seq<int>>, logs: seq<DailyLog>): (r: map<string, seq<int>>)
    ensures r.Keys == m.Keys + SymptomNames(logs)
    decreases |logs|
  {
    if |logs| == 0 then m else SymptomTotals(AddSymptoms(m, SymptomsOf(logs[0])), logs[1..])
  }

  /** Each name's list in `symptom_totals` is every severity recorded for it, in log order. */
  lemma {:induction false} SymptomTotalsAt(m: map<string, seq<int>>, logs: seq<DailyLog>, n: string)
    ensures Lookup(SymptomTotals(m, logs), n) == Lookup(m, n) + Scores(logs, n)
    decreases |logs|
  {
    if |logs| > 0 {
      var here := SeveritiesNamed(SymptomsOf(logs[0]), n);
      var later := Scores(logs[1..], n);
      var m' := AddSymptoms(m, SymptomsOf(logs[0]));
      assert SymptomTotals(m, logs) == SymptomTotals(m', logs[1..]);
      assert Scores(logs, n) == here + later;
      AddSymptomsAt(m, SymptomsOf(logs[0]), n);
      assert Lookup(m', n) == Lookup(m, n) + here;
      SymptomTotalsAt(m', logs[1..], n);
      AppendAssociative(Lookup(m, n), here, later);
    }
  }

  lemma {:induction false} AppendAssociative(a: seq<int>, b: seq<int>, c: seq<int>)
    ensures (a + b) + c == a + (b + c)
  {
  }

  /** Folded from an empty dict, a key's list is exactly the name's scores, and it is not empty. */
  lemma {:induction false} TotalsAreScores(logs: seq<DailyLog>, n: string)
    requires n in SymptomTotals(map[], logs)
    ensures SymptomTotals(map[], logs)[n] == Scores(logs, n) && |Scores(logs, n)| > 0
  {
    var totals := SymptomTotals(map[], logs);
    SymptomTotalsAt(map[], logs, n);
    assert Lookup(map[], n) == [];
    assert Lookup(totals, n) == totals[n];
    ScoredIffOccurs(logs, n);
  }

  function ToReals(xs: seq<int>): (rs: seq<real>)
    ensures |rs| == |xs|
    ensures forall i :: 0 <= i < |xs| ==> rs[i] == xs[i] as real
  {
    if |xs| == 0 then [] else [xs[0] as real] + ToReals(xs[1..])
  }

  /** The largest real image of some integers is the image of one of them. */
  lemma {:induction false} MaxOfImages(xs: seq<int>)
    requires |xs| > 0
    ensures exists k :: 0 <= k < |xs| && MaxOf(ToReals(xs)) == xs[k] as real
    ensures forall x :: x in xs ==> x as real <= MaxOf(ToReals(xs))
  {
    var rs := ToReals(xs);
    var j :| 0 <= j < |rs| && rs[j] == MaxOf(rs);
    forall x | x in xs ensures x as real <= MaxOf(rs) {
      var k :| 0 <= k < |xs| && xs[k] == x;
      assert rs[k] in rs;
    }
  }

  /** The largest of some integers, read back from the largest of their real images. */
  function MaxScore(xs: seq<int>): (m: int)
    requires |xs| > 0
    ensures m in xs && m as real == MaxOf(ToReals(xs))
    ensures forall x :: x in xs ==> x <= m
  {
    MaxOfImages(xs);
    MaxOf(ToReals(xs)).Floor
  }

  datatype SymptomStat = SymptomStat(average: real, max: int, entries: nat)

  /**
   * `s` describes a non-empty list of severities: its number of entries, its
   * largest severity, and their average, the sum divided by the number of
   * entries, which lies between the smallest and the largest.
   */
  predicate Describes(s: SymptomStat, scores: seq<int>)
  {
    && |scores| > 0
    && s.entries == |scores|
    && s.max in scores && (forall x :: x in scores ==> x <= s.max)
    && s.average == Sum(ToReals(scores)) / (|scores| as real)
    && MinOf(ToReals(scores)) <= s.average <= s.max as real
  }

  /** The statistics of a non-empty list of severities. */
  function StatOf(scores: seq<int>): (s: SymptomStat)
    requires |scores| > 0
    ensures Describes(s, scores)
  {
    var rs := ToReals(scores);
    SymptomStat(Mean(rs).value, MaxScore(scores), |scores|)
  }

  /**
   * The source's `symptom_averages`: one statistic per symptom name that occurs
   * in some log; `SymptomAveragesAt` states what each one holds.
   */
  function SymptomAverages(logs: seq<DailyLog>): (r: map<string, SymptomStat>)
    ensures r.Keys == SymptomNames(logs)
  {
    var totals := SymptomTotals(map[], logs);
    map n | n in totals :: (TotalsAreScores(logs, n); StatOf(totals[n]))
  }

  /**
   * The statistic reported for a symptom is that of every severity recorded
   * under its name: their count, their maximum, and an average between their
   * minimum and maximum.
   */
  lemma {:induction false} SymptomAveragesAt(logs: seq<DailyLog>, n: string)
    requires n in SymptomAverages(logs)
    ensures |Scores(logs, n)| > 0
    ensures SymptomAverages(logs)[n] == StatOf(Scores(logs, n))
    ensures Describes(SymptomAverages(logs)[n], Scores(logs, n))
  {
    TotalsAreScores(logs, n);
  }

  lemma {:induction false} SeverityNamedListed(ss: seq<Symptom>, k: int)
    requires 0 <= k < |ss|
    ensures ss[k].severity in SeveritiesNamed(ss, ss[k].name)
    decreases k
  {
    if k > 0 {
      SeverityNamedListed(ss[1..], k - 1);
    }
  }

  /** Every symptom entry of every log is among the scores of its name. */
  lemma {:induction false} SeverityListed(logs: seq<DailyLog>, i: int, k: int)
    requires 0 <= i < |logs| && 0 <= k < |SymptomsOf(logs[i])|
    ensures SymptomsOf(logs[i])[k].severity in Scores(logs, SymptomsOf(logs[i])[k].name)
    decreases i
  {
    if i == 0 {
      SeverityNamedListed(SymptomsOf(logs[0]), k);
    } else {
      SeverityListed(logs[1..], i - 1, k);
      assert logs[1..][i - 1] == logs[i];
    }
  }

  /** The reported maximum of a symptom is at least every severity logged for it. */
  lemma {:induction false} MaxBoundsEverySeverity(logs: seq<DailyLog>, i: int, k: int)
    requires 0 <= i < |logs| && 0 <= k < |SymptomsOf(logs[i])|
    ensures SymptomsOf(logs[i])[k].name in SymptomAverages(logs)
    ensures SymptomsOf(logs[i])[k].severity <= SymptomAverages(logs)[SymptomsOf(logs[i])[k].name].max
  {
    var entry := SymptomsOf(logs[i])[k];
    var averages := SymptomAverages(logs);
    SeverityListed(logs, i, k);
    ScoredIffOccurs(logs, entry.name);
    assert entry.name in averages;
    SymptomAveragesAt(logs, entry.name);
  }

  // ---------------------------------------------------------------------------
  // Occurrence counts

  function Count<K(==)>(ks: seq<K>, k: K): nat
  {
    if |ks| == 0 then 0 else (if ks[0] == k then 1 else 0) + Count(ks[1..], k)
  }

  lemma {:induction false} CountPositive<K>(ks: seq<K>, k: K)
    ensures Count(ks, k) > 0 <==> k in ks
    decreases |ks|
  {
    if |ks| > 0 {
      CountPositive(ks[1..], k);
      assert k in ks <==> ks[0] == k || k in ks[1..];
    }
  }

  function Get<K>(m: map<K, nat>, k: K): nat
  {
    if k in m then m[k] else 0
  }

  /** The source's `counts[k] += 1` for each key in turn, on a default-zero map. */
  function CountInto<K(==,!new)>(m: map<K, nat>, ks: seq<K>): (r: map<K, nat>)
    ensures forall k :: k in r <==> k in m || k in ks
    ensures forall k :: k in r ==> r[k] == Get(m, k) + Count(ks, k)
    decreases |ks|
  {
    if |ks| == 0 then m
    else
      var r := CountInto(m[ks[0] := Get(m, ks[0]) + 1], ks[1..]);
      assert forall k :: k in ks <==> k == ks[0] || k in ks[1..];
      r
  }

  /** The activity types of all logs, one per activity entry. */
  function ActivityKinds(logs: seq<DailyLog>): seq<string>
  {
    if |logs| == 0 then []
    else KindsOf(OrEmpty(logs[0].content.activities)) + ActivityKinds(logs[1..])
  }

  function KindsOf(acts: seq<Activity>): seq<string>
  {
    if |acts| == 0 then [] else [acts[0].kind] + KindsOf(acts[1..])
  }

  /** Per activity type: how many activity entries of that type the logs hold; only types that occur. */
  function ActivityCounts(logs: seq<DailyLog>): (r: map<string, nat>)
    ensures forall t :: t in r <==> t in ActivityKinds(logs)
    ensures forall t :: t in r ==> r[t] == Count(ActivityKinds(logs), t) && r[t] > 0
  {
    var r := CountInto(map[], ActivityKinds(logs));
    assert forall t :: t in r ==> r[t] > 0 by {
      forall t | t in r ensures r[t] > 0 {
        CountPositive(ActivityKinds(logs), t);
      }
    }
    r
  }

  /** (medication name, side-effect name) for one medication's side-effect entry. */
  function PairsOf(mse: MedicationSideEffect): seq<(string, string)>
  {
    PairsFrom(mse.medicationName, mse.sideEffects)
  }

  function PairsFrom(medName: string, ses: seq<SideEffect>): seq<(string, string)>
  {
    if |ses| == 0 then [] else [(medName, ses[0].name)] + PairsFrom(medName, ses[1..])
  }

  function PairsOfAll(mses: seq<MedicationSideEffect>): seq<(string, string)>
  {
    if |mses| == 0 then [] else PairsOf(mses[0]) + PairsOfAll(mses[1..])
  }

  /** Every (medication name, side-effect name) occurrence of all logs, in order. */
  function SideEffectPairs(logs: seq<DailyLog>): seq<(string, string)>
  {
    if |logs| == 0 then []
    else PairsOfAll(OrEmpty(logs[0].content.medicationSideEffects)) + SideEffectPairs(logs[1..])
  }

  /** Turns counts keyed by pairs into the source's medication name -> side effect -> count. */
  function Nest(flat: map<(string, string), nat>): (r: map<string, map<string, nat>>)
    ensures forall a, b :: a in r && b in r[a] <==> (a, b) in flat
    ensures forall a, b :: a in r && b in r[a] ==> r[a][b] == flat[(a, b)]
    ensures forall a :: a in r ==> exists b :: (a, b) in flat
  {
    var outer := set p | p in flat :: p.0;
    var r := map a | a in outer :: map b | b in (set p | p in flat && p.0 == a :: p.1) :: flat[(a, b)];
    assert forall a, b :: (a, b) in flat ==> a in r && b in r[a] by {
      forall a, b | (a, b) in flat ensures a in r && b in r[a] {
        var p := (a, b);
        assert p in flat && p.0 == a;
      }
    }
    r
  }

  /**
   * Per medication name and side-effect name, the number of times that side
   * effect was recorded for that medication; a pair is present exactly when it occurs.
   */
  function SideEffectCounts(logs: seq<DailyLog>): (r: map<string, map<string, nat>>)
    ensures forall a, b :: a in r && b in r[a] <==> (a, b) in SideEffectPairs(logs)
    ensures forall a, b :: a in r && b in r[a] ==> r[a][b] == Count(SideEffectPairs(logs), (a, b))
    ensures forall a :: a in r ==> exists b :: (a, b) in SideEffectPairs(logs)
  {
    Nest(CountInto(map[], SideEffectPairs(logs)))
  }

  // ---------------------------------------------------------------------------
  // Lifestyle totals

  datatype Flag = Smoked | Alcohol | Stressed | AteWell

  function FlagOf(l: Lifestyle, f: Flag): bool
  {
    match f
    case Smoked => l.smoked
    case Alcohol => l.alcohol
    case Stressed => l.stressed
    case AteWell => l.ateWell
  }

  /** Reference count: the logs that carry a lifestyle object with flag `f` set. */
  function LogsWithFlag(logs: seq<DailyLog>, f: Flag): nat
  {
    if |logs| == 0 then 0
    else
      var l := logs[0].content.lifestyle;
      (if l.Some? && FlagOf(l.value, f) then 1 else 0) + LogsWithFlag(logs[1..], f)
  }

  datatype LifestyleTotals = LifestyleTotals(smoked: nat, alcohol: nat, stressed: nat, ateWell: nat)

  function TotalOf(t: LifestyleTotals, f: Flag): nat
  {
    match f
    case Smoked => t.smoked
    case Alcohol => t.alcohol
    case Stressed => t.stressed
    case AteWell => t.ateWell
  }

  /** One log's contribution: each set flag adds one; a null lifestyle adds nothing. */
  function AddLifestyle(t: LifestyleTotals, l: Option<Lifestyle>): LifestyleTotals
  {
    match l
    case None => t
    case Some(v) =>
      LifestyleTotals(
        t.smoked + (if v.smoked then 1 else 0),
        t.alcohol + (if v.alcohol then 1 else 0),
        t.stressed + (if v.stressed then 1 else 0),
        t.ateWell + (if v.ateWell then 1 else 0))
  }

  function FoldLifestyle(t: LifestyleTotals, logs: seq<DailyLog>): (r: LifestyleTotals)
    ensures forall f :: TotalOf(r, f) == TotalOf(t, f) + LogsWithFlag(logs, f)
    decreases |logs|
  {
    if |logs| == 0 then t else FoldLifestyle(AddLifestyle(t, logs[0].content.lifestyle), logs[1..])
  }

  lemma {:induction false} LogsWithFlagBounded(logs: seq<DailyLog>, f: Flag)
    ensures LogsWithFlag(logs, f) <= |logs|
    decreases |logs|
  {
    if |logs| > 0 {
      LogsWithFlagBounded(logs[1..], f);
    }
  }

  /** Each lifestyle total is the number of logs with that flag set, hence at most the number of logs. */
  function LifestyleTotalsOf(logs: seq<DailyLog>): (r: LifestyleTotals)
    ensures forall f :: TotalOf(r, f) == LogsWithFlag(logs, f)
    ensures forall f :: TotalOf(r, f) <= |logs|
  {
    var r := FoldLifestyle(LifestyleTotals(0, 0, 0, 0), logs);
    assert forall f :: TotalOf(r, f) <= |logs| by {
      forall f ensures TotalOf(r, f) <= |logs| {
        LogsWithFlagBounded(logs, f);
      }
    }
    r
  }

  /** A lifestyle object whose flags were all omitted adds nothing to any total. */
  lemma {:induction false} DefaultLifestyleCountsNothing(logs: seq<DailyLog>, log: DailyLog)
    requires log.content.lifestyle == Some(DefaultLifestyle)
    ensures LifestyleTotalsOf([log] + logs) == LifestyleTotalsOf(logs)
  {
    assert ([log] + logs)[1..] == logs;
    var a := LifestyleTotalsOf([log] + logs);
    var b := LifestyleTotalsOf(logs);
    assert TotalOf(a, Smoked) == TotalOf(b, Smoked);
    assert TotalOf(a, Alcohol) == TotalOf(b, Alcohol);
    assert TotalOf(a, Stressed) == TotalOf(b, Stressed);
    assert TotalOf(a, AteWell) == TotalOf(b, AteWell);
  }
}

=== FILE: fence.dfy ===
/**
 * Cleaning the text of the AI reply before it is parsed as JSON: surrounding
 * whitespace is stripped, and a Markdown code fence around the JSON is removed.
 */
module Fence {

  /** The characters Python's `str.isspace` accepts, which `str.strip()` removes. */
  predicate IsSpace(c: char)
  {
    || c == ' ' || c == '\t' || c == '\n' || c == '\r' || c == '\U{0B}' || c == '\U{0C}'
    || ('\U{1C}' <= c <= '\U{1F}')
    || c == '\U{85}' || c == '\U{A0}' || c == '\U{1680}'
    || ('\U{2000}' <= c <= '\U{200A}')
    || c == '\U{2028}' || c == '\U{2029}' || c == '\U{202F}' || c == '\U{205F}' || c == '\U{3000}'
  }

  /** `s` starts and ends with a non-space character, or is empty. */
  predicate Trimmed(s: string)
  {
    |s| == 0 || (!IsSpace(s[0]) && !IsSpace(s[|s| - 1]))
  }

  /** `r` is a contiguous piece of `s`. */
  ghost predicate IsInfix(r: string, s: string)
  {
    exists i :: InfixAt(r, s, i)
  }

  /** `r` occurs in `s` starting at index `i`. */
  predicate InfixAt(r: string, s: string, i: int)
  {
    0 <= i && i + |r| <= |s| && r == s[i..i + |r|]
  }

  /** Every character is whitespace. */
  predicate AllSpace(s: string)
  {
    forall j :: 0 <= j < |s| ==> IsSpace(s[j])
  }

  /** Leading whitespace removed: a suffix of `s` whose dropped prefix is all whitespace. */
  function TrimStart(s: string): (r: string)
    ensures |r| <= |s| && r == s[|s| - |r|..]
    ensures AllSpace(s[..|s| - |r|])
    ensures |r| > 0 ==> !IsSpace(r[0])
    decreases |s|
  {
    if |s| > 0 && IsSpace(s[0]) then TrimStart(s[1..]) else s
  }

  /** Trailing whitespace removed: a prefix of `s` whose dropped suffix is all whitespace. */
  function TrimEnd(s: string): (r: string)
    ensures |r| <= |s| && r == s[..|r|]
    ensures AllSpace(s[|r|..])
    ensures |r| > 0 ==> !IsSpace(r[|r| - 1])
    decreases |s|
  {
    if |s| > 0 && IsSpace(s[|s| - 1]) then TrimEnd(s[..|s| - 1]) else s
  }

  /** `r` sits in `s` at index `i` with only whitespace before and after it. */
  predicate StrippedAt(r: string, s: string, i: int)
  {
    InfixAt(r, s, i) && AllSpace(s[..i]) && AllSpace(s[i + |r|..])
  }

  /**
   * Python's `str.strip()` with no argument: what is left once the whitespace
   * on both ends is removed, and nothing else.
   */
  function Strip(s: string): (r: string)
    ensures Trimmed(r)
    ensures exists i :: StrippedAt(r, s, i)
  {
    var a := TrimStart(s);
    var r := TrimEnd(a);
    assert |r| > 0 ==> r[0] == a[0];
    var i := |s| - |a|;
    assert s[i + |r|..] == a[|r|..];
    assert StrippedAt(r, s, i);
    r
  }

  /**
   * The contract of `Strip` determines it: a trimmed piece of `s` with only
   * whitespace around it is the stripped text.
   */
  lemma {:induction false} StripUnique(s: string, r: string, i: int)
    requires Trimmed(r) && StrippedAt(r, s, i)
    ensures r == Strip(s)
  {
    var a := TrimStart(s);
    var r' := TrimEnd(a);
    var i' := |s| - |a|;
    SpaceBefore(s, i);
    SpaceFrom(s, i + |r|);
    SpaceBefore(s, i');
    SpaceFrom(a, |r'|);
    assert |a| > 0 ==> a[0] == s[i'];
    if |r| == 0 {
      assert |a| == 0;
    } else {
      assert r[0] == s[i];
      assert i == i';
      assert r == a[..|r|];
      assert |r'| > 0;
      assert r'[|r'| - 1] == a[|r'| - 1] == s[i + |r'| - 1];
      assert r[|r| - 1] == a[|r| - 1];
      assert |r| == |r'|;
    }
  }

  lemma {:induction false} SpaceBefore(s: string, k: int)
    requires 0 <= k <= |s| && AllSpace(s[..k])
    ensures forall j :: 0 <= j < k ==> IsSpace(s[j])
  {
    forall j | 0 <= j < k ensures IsSpace(s[j]) {
      assert s[..k][j] == s[j];
    }
  }

  lemma {:induction false} SpaceFrom(s: string, k: int)
    requires 0 <= k <= |s| && AllSpace(s[k..])
    ensures forall j :: k <= j < |s| ==> IsSpace(s[j])
  {
    forall j | k <= j < |s| ensures IsSpace(s[j]) {
      assert s[k..][j - k] == s[j];
    }
  }

  /** The stripped text is a contiguous piece of the input. */
  lemma {:induction false} StripIsInfix(s: string)
    ensures IsInfix(Strip(s), s)
  {
    var i :| StrippedAt(Strip(s), s, i);
    assert InfixAt(Strip(s), s, i);
  }

  /** Stripping text that has no surrounding whitespace leaves it unchanged. */
  lemma {:induction false} StripTrimmed(s: string)
    requires Trimmed(s)
    ensures Strip(s) == s
  {
  }

  /** Stripping twice is stripping once. */
  lemma {:induction false} StripIdempotent(s: string)
    ensures Strip(Strip(s)) == Strip(s)
  {
    StripTrimmed(Strip(s));
  }

  const Fence: string := "```"

  predicate StartsWith(s: string, p: string)
  {
    |p| <= |s| && s[..|p|] == p
  }

  predicate EndsWith(s: string, p: string)
  {
    |p| <= |s| && s[|s| - |p|..] == p
  }

  /** The index of the first newline, if any. */
  function FirstNewline(s: string): (r: int)
    ensures -1 <= r < |s|
    ensures r >= 0 ==> s[r] == '\n' && forall j :: 0 <= j < r ==> s[j] != '\n'
    ensures r == -1 ==> forall j :: 0 <= j < |s| ==> s[j] != '\n'
    decreases |s|
  {
    if |s| == 0 then -1
    else if s[0] == '\n' then 0
    else
      var k := FirstNewline(s[1..]);
      if k == -1 then -1 else k + 1
  }

  /**
   * Python's `s.split("\n", 1)[-1]`: all of `s` when it has no newline;
   * otherwise what follows a newline-free first line and its newline.
   */
  function AfterFirstLine(s: string): (r: string)
    ensures '\n' !in s ==> r == s
    ensures '\n' in s ==> |r| < |s| && s[|s| - |r| - 1] == '\n' && s[|s| - |r|..] == r
                          && '\n' !in s[..|s| - |r| - 1]
  {
    var k := FirstNewline(s);
    if k == -1 then s else s[k + 1..]
  }

  /**
   * The fence removal applied to the stripped reply: text that does not open
   * with a fence is kept; otherwise its first line is dropped and, when what is
   * left closes with a fence, the fence is cut off and the rest stripped. The
   * result is always a contiguous piece of the input.
   */
  function StripFences(text: string): (r: string)
    ensures !StartsWith(text, Fence) ==> r == text
    ensures StartsWith(text, Fence) && !EndsWith(AfterFirstLine(text), Fence) ==> r == AfterFirstLine(text)
    ensures StartsWith(text, Fence) && EndsWith(AfterFirstLine(text), Fence) ==>
      r == Strip(BeforeClosingFence(AfterFirstLine(text)))
  {
    if !StartsWith(text, Fence) then text
    else
      var body := AfterFirstLine(text);
      if EndsWith(body, Fence) then Strip(BeforeClosingFence(body))
      else body
  }

  /** What precedes the closing fence. */
  function BeforeClosingFence(body: string): (r: string)
    requires EndsWith(body, Fence)
    ensures r + Fence == body
  {
    body[..|body| - |Fence|]
  }

  lemma {:induction false} SliceIsInfix(s: string, i: int, j: int)
    requires 0 <= i <= j <= |s|
    ensures IsInfix(s[i..j], s)
  {
    assert InfixAt(s[i..j], s, i);
  }

  lemma {:induction false} AfterFirstLineIsInfix(text: string)
    ensures IsInfix(AfterFirstLine(text), text)
  {
    var k := FirstNewline(text);
    if k == -1 {
      SliceIsInfix(text, 0, |text|);
      assert text[0..|text|] == text;
    } else {
      SliceIsInfix(text, k + 1, |text|);
      assert text[k + 1..] == text[k + 1..|text|];
    }
  }

  lemma {:induction false} ClosingFenceCutIsInfix(body: string)
    requires EndsWith(body, Fence)
    ensures IsInfix(Strip(BeforeClosingFence(body)), body)
  {
    var inner := BeforeClosingFence(body);
    assert InfixAt(inner, body, 0);
    StripIsInfix(inner);
    InfixTransitive(Strip(inner), inner, body);
  }

  lemma {:induction false} FencedIsInfix(text: string)
    requires StartsWith(text, Fence)
    ensures IsInfix(StripFences(text), text)
  {
    FencedBodyIsInfix(text);
    AfterFirstLineIsInfix(text);
    InfixTransitive(StripFences(text), AfterFirstLine(text), text);
  }

  lemma {:induction false} FencedBodyIsInfix(text: string)
    requires StartsWith(text, Fence)
    ensures IsInfix(StripFences(text), AfterFirstLine(text))
  {
    var body := AfterFirstLine(text);
    if EndsWith(body, Fence) {
      ClosingFenceCutIsInfix(body);
    } else {
      SelfIsInfix(body);
    }
  }

  lemma {:induction false} SelfIsInfix(s: string)
    ensures IsInfix(s, s)
  {
    assert InfixAt(s, s, 0);
  }

  /** Removing the fences only cuts characters off the two ends. */
  lemma {:induction false} StripFencesIsInfix(text: string)
    ensures IsInfix(StripFences(text), text)
  {
    if StartsWith(text, Fence) {
      FencedIsInfix(text);
    } else {
      SliceIsInfix(text, 0, |text|);
      assert text[0..|text|] == text;
    }
  }

  /** The reply as the server keeps it before JSON parsing: stripped, then unfenced. */
  function CleanReply(raw: string): (r: string)
    ensures !StartsWith(Strip(raw), Fence) ==> r == Strip(raw)
    ensures StartsWith(Strip(raw), Fence) && !EndsWith(AfterFirstLine(Strip(raw)), Fence) ==>
      r == AfterFirstLine(Strip(raw))
    ensures StartsWith(Strip(raw), Fence) && EndsWith(AfterFirstLine(Strip(raw)), Fence) ==>
      r == Strip(BeforeClosingFence(AfterFirstLine(Strip(raw))))
  {
    StripFences(Strip(raw))
  }

  /** The cleaned reply is a contiguous piece of the raw reply. */
  lemma {:induction false} CleanReplyIsInfix(raw: string)
    ensures IsInfix(CleanReply(raw), raw)
  {
    StripIsInfix(raw);
    StripFencesIsInfix(Strip(raw));
    InfixTransitive(CleanReply(raw), Strip(raw), raw);
  }

  lemma {:induction false} InfixTransitive(a: string, b: string, c: string)
    requires IsInfix(a, b) && IsInfix(b, c)
    ensures IsInfix(a, c)
  {
    var i :| InfixAt(b, c, i);
    var i' :| InfixAt(a, b, i');
    forall k | 0 <= k < |a| ensures a[k] == c[i + i' + k] {
      assert a[k] == b[i' + k];
      assert b[i' + k] == c[i + i' + k];
    }
    assert InfixAt(a, c, i + i');
  }


  /**
   * Whatever sits between a fence's opening line (a newline-free language tag)
   * and its closing fence comes back stripped.
   */
  lemma {:induction false} FencedContentRoundTrip(tag: string, inner: string)
    requires forall c :: c in tag ==> c != '\n'
    ensures StripFences(Fence + tag + "\n" + inner + Fence) == Strip(inner)
  {
    var text := Fence + tag + "\n" + inner + Fence;
    var k := |Fence| + |tag|;
    assert text[..|Fence|] == Fence;
    assert forall j :: 0 <= j < k ==> text[j] != '\n' by {
      forall j | 0 <= j < k ensures text[j] != '\n' {
        assert text[j] == (Fence + tag)[j];
        if j >= |Fence| {
          assert (Fence + tag)[j] == tag[j - |Fence|];
          assert tag[j - |Fence|] in tag;
        }
      }
    }
    assert text[k] == '\n';
    FirstNewlineIs(text, k);
    var rest := AfterFirstLine(text);
    assert rest == inner + Fence;
    assert EndsWith(rest, Fence);
    assert BeforeClosingFence(rest) == inner;
  }

  /**
   * A JSON body with no surrounding whitespace, wrapped in a fence whose opening
   * line carries a language tag, comes back exactly.
   */
  lemma {:induction false} FencedRoundTrip(tag: string, body: string)
    requires forall c :: c in tag ==> c != '\n'
    requires Trimmed(body)
    ensures StripFences(Fence + tag + "\n" + body + "\n" + Fence) == body
  {
    assert Fence + tag + "\n" + body + "\n" + Fence == Fence + tag + "\n" + (body + "\n") + Fence;
    FencedContentRoundTrip(tag, body + "\n");
    StripNewlineAfter(body);
  }

  /**
   * A reply that is a fenced block with any whitespace around it is cleaned to
   * the stripped content of the block.
   */
  lemma {:induction false} CleanFencedReply(lead: string, tag: string, inner: string, trail: string)
    requires AllSpace(lead) && AllSpace(trail)
    requires forall c :: c in tag ==> c != '\n'
    ensures CleanReply(lead + (Fence + tag + "\n" + inner + Fence) + trail) == Strip(inner)
  {
    var t := Fence + tag + "\n" + inner + Fence;
    var raw := lead + t + trail;
    assert t[0] == '`' && t[|t| - 1] == '`';
    assert raw[..|lead|] == lead;
    assert raw[|lead|..|lead| + |t|] == t;
    assert raw[|lead| + |t|..] == trail;
    assert StrippedAt(t, raw, |lead|);
    StripUnique(raw, t, |lead|);
    FencedContentRoundTrip(tag, inner);
  }

  lemma {:induction false} FirstNewlineIs(s: string, k: int)
    requires 0 <= k < |s| && s[k] == '\n'
    requires forall j :: 0 <= j < k ==> s[j] != '\n'
    ensures FirstNewline(s) == k
  {
    var r := FirstNewline(s);
    assert r != -1;
  }

  lemma {:induction false} StripNewlineAfter(body: string)
    requires Trimmed(body)
    ensures Strip(body + "\n") == body
  {
    var s := body + "\n";
    if |body| == 0 {
      assert s == "\n";
      assert TrimStart(s) == TrimStart(s[1..]);
      assert s[1..] == "";
    } else {
      assert s[0] == body[0];
      assert TrimStart(s) == s;
      assert s[..|s| - 1] == body;
      assert TrimEnd(s) == TrimEnd(body);
      assert TrimEnd(body) == body;
    }
  }
}

=== FILE: logs.dfy ===
/**
 * The daily-log endpoints: upsert of the log for a (patient, date), the log of
 * today, and the logs of the last 90 days, newest first. Every endpoint first
 * checks that the patient belongs to the calling caregiver.
 */
module Logs {
  import opened Wrappers
  import opened Records
  import opened Store

  // ---------------------------------------------------------------------------
  // Request body and field serialisation

  /** A validated `DailyLogCreate` body; omitted lists arrive as empty lists, omitted optionals as null. */
  datatype LogRequest = LogRequest(
    patientId: int,
    date: Day,
    medicationsTaken: seq<MedicationTaken>,
    symptoms: seq<Symptom>,
    medicationSideEffects: seq<MedicationSideEffect>,
    sleepHours: Option<real>,
    moodScore: Option<int>,
    waterIntakeOz: Option<real>,
    activities: seq<Activity>,
    lifestyle: Option<Lifestyle>,
    notes: Option<string>)

  /** The body in which every content field was omitted. */
  function EmptyRequest(pid: int, date: Day): LogRequest
  {
    LogRequest(pid, date, [], [], [], None, None, None, [], None, None)
  }

  /** A JSON value as stored in a JSON column. */
  datatype Json = JNull | JBool(b: bool) | JNum(n: real) | JStr(s: string) | JList(items: seq<Json>) | JObject(fields: map<string, Json>)

  /** A request value: a Pydantic model, an already plain JSON value, or a list of values. */
  datatype Field<M> = Model(m: M) | Plain(j: Json) | List(items: seq<Field<M>>)

  /**
   * `_serialize_log_field`: a list is mapped element by element, each model item
   * dumped and every other item kept; a model is dumped; anything else is kept.
   */
  function SerializeField<M>(v: Field<M>, dump: M -> Json): (r: Field<M>)
    ensures v.List? ==> r.List? && |r.items| == |v.items|
    ensures v.List? ==> forall i :: 0 <= i < |v.items| ==>
      r.items[i] == (if v.items[i].Model? then Plain(dump(v.items[i].m)) else v.items[i])
    ensures v.Model? ==> r == Plain(dump(v.m))
    ensures v.Plain? ==> r == v
  {
    match v
    case List(items) => List(seq(|items|, i requires 0 <= i < |items| =>
                          if items[i].Model? then Plain(dump(items[i].m)) else items[i]))
    case Model(m) => Plain(dump(m))
    case Plain(_) => v
  }

  /** Serialising an already serialised field changes nothing more: no top-level model survives. */
  lemma {:induction false} SerializeFieldIdempotent<M>(v: Field<M>, dump: M -> Json)
    ensures SerializeField(SerializeField(v, dump), dump) == SerializeField(v, dump)
  {
    var once := SerializeField(v, dump);
    var twice := SerializeField(once, dump);
    if v.List? {
      assert |twice.items| == |once.items|;
      forall i | 0 <= i < |once.items| ensures twice.items[i] == once.items[i] {
        assert !once.items[i].Model?;
      }
    }
  }

  /**
   * The nine content columns the request writes. The model keeps typed records in
   * the store, so serialising a field keeps its elements in number and order.
   */
  function ContentOf(req: LogRequest): (c: LogContent)
    ensures c.medicationsTaken == Some(req.medicationsTaken)
    ensures c.symptoms == Some(req.symptoms)
    ensures c.medicationSideEffects == Some(req.medicationSideEffects)
    ensures c.activities == Some(req.activities)
    ensures c.sleepHours == req.sleepHours && c.moodScore == req.moodScore
    ensures c.waterIntakeOz == req.waterIntakeOz && c.lifestyle == req.lifestyle && c.notes == req.notes
  {
    LogContent(
      Some(req.medicationsTaken), Some(req.symptoms), Some(req.medicationSideEffects),
      req.sleepHours, req.moodScore, req.waterIntakeOz,
      Some(req.activities), req.lifestyle, req.notes)
  }

  // ---------------------------------------------------------------------------
  // Lookup by (patient, date)

  predicate IsKey(log: DailyLog, pid: int, date: Day)
  {
    log.patientId == pid && log.date == date
  }

  /** The index of the first log of the patient on that date, or -1. */
  function FindLog(logs: seq<DailyLog>, pid: int, date: Day): (r: int)
    ensures -1 <= r < |logs|
    ensures r >= 0 ==> IsKey(logs[r], pid, date) && forall j :: 0 <= j < r ==> !IsKey(logs[j], pid, date)
    ensures r == -1 <==> forall j :: 0 <= j < |logs| ==> !IsKey(logs[j], pid, date)
    decreases |logs|
  {
    if |logs| == 0 then -1
    else if IsKey(logs[0], pid, date) then 0
    else
      var k := FindLog(logs[1..], pid, date);
      assert forall j :: 1 <= j < |logs| ==> logs[j] == logs[1..][j - 1];
      if k == -1 then -1 else k + 1
  }

  /** At most one log per (patient, date). */
  predicate UniqueKeys(logs: seq<DailyLog>)
  {
    forall i, j :: 0 <= i < j < |logs| ==> !(logs[i].patientId == logs[j].patientId && logs[i].date == logs[j].date)
  }

  // ---------------------------------------------------------------------------
  // create_or_update_log

  /**
   * The upsert: 404 for a patient the caller does not own; otherwise the first
   * log of that patient on that date has its content replaced, or a new log is
   * appended when there is none.
   */
  function CreateOrUpdateLog(st: State, user: int, req: LogRequest): (out: Step<DailyLog>)
    ensures !OwnsPatient(st, user, req.patientId) ==> out == Step(Err(PatientNotFound), st)
    ensures out.result.Ok? ==> out.result.value in out.state.logs
    ensures out.result.Ok? ==> IsKey(out.result.value, req.patientId, req.date)
    ensures out.result.Ok? ==> out.result.value.content == ContentOf(req)
    ensures out.state.patients == st.patients && out.state.medications == st.medications
  {
    if !OwnsPatient(st, user, req.patientId) then Step(Err(PatientNotFound), st)
    else
      var i := FindLog(st.logs, req.patientId, req.date);
      if i >= 0 then
        var updated := st.logs[i].(content := ContentOf(req));
        var logs := st.logs[i := updated];
        assert logs[i] == updated;
        Step(Ok(updated), st.(logs := logs))
      else
        var created := DailyLog(st.nextLogId, req.patientId, user, req.date, ContentOf(req));
        Step(Ok(created), st.(logs := st.logs + [created], nextLogId := st.nextLogId + 1))
  }

  /**
   * When a log exists for the key, exactly that log changes: its id, patient,
   * logger and date stay, its content becomes the request's; no log is added.
   */
  lemma {:induction false} UpsertOverwritesExisting(st: State, user: int, req: LogRequest)
    requires OwnsPatient(st, user, req.patientId)
    requires FindLog(st.logs, req.patientId, req.date) >= 0
    ensures var i := FindLog(st.logs, req.patientId, req.date);
      var out := CreateOrUpdateLog(st, user, req);
      && |out.state.logs| == |st.logs|
      && out.state.logs[i].id == st.logs[i].id
      && out.state.logs[i].patientId == st.logs[i].patientId
      && out.state.logs[i].loggedBy == st.logs[i].loggedBy
      && out.state.logs[i].date == st.logs[i].date
      && out.state.logs[i].content == ContentOf(req)
      && (forall j :: 0 <= j < |st.logs| && j != i ==> out.state.logs[j] == st.logs[j])
      && out.state.nextLogId == st.nextLogId
      && out.result == Ok(out.state.logs[i])
  {
  }

  /**
   * When no log exists for the key, exactly one log is appended, logged by the
   * caller, for the requested patient and date, with a fresh id.
   */
  lemma {:induction false} UpsertAppendsNew(st: State, user: int, req: LogRequest)
    requires Valid(st)
    requires OwnsPatient(st, user, req.patientId)
    requires forall j :: 0 <= j < |st.logs| ==> !IsKey(st.logs[j], req.patientId, req.date)
    ensures var out := CreateOrUpdateLog(st, user, req);
      && out.result.Ok?
      && out.state.logs == st.logs + [out.result.value]
      && out.result.value.loggedBy == user
      && out.result.value.patientId == req.patientId
      && out.result.value.date == req.date
      && (forall j :: 0 <= j < |st.logs| ==> st.logs[j].id != out.result.value.id)
  {
  }

  /** Sending a body with every content field omitted clears the existing log's content. */
  lemma {:induction false} EmptyBodyClearsContent(st: State, user: int, pid: int, date: Day)
    requires OwnsPatient(st, user, pid)
    requires FindLog(st.logs, pid, date) >= 0
    ensures var out := CreateOrUpdateLog(st, user, EmptyRequest(pid, date));
      out.result.Ok? && out.result.value.content ==
        LogContent(Some([]), Some([]), Some([]), None, None, None, Some([]), None, None)
  {
  }

  /** The upsert keeps "at most one log per (patient, date)" and the store invariant. */
  lemma {:induction false} UpsertPreservesInvariants(st: State, user: int, req: LogRequest)
    requires Valid(st) && UniqueKeys(st.logs)
    ensures Valid(CreateOrUpdateLog(st, user, req).state)
    ensures UniqueKeys(CreateOrUpdateLog(st, user, req).state.logs)
  {
    var out := CreateOrUpdateLog(st, user, req);
    var logs := out.state.logs;
    if OwnsPatient(st, user, req.patientId) {
      var i := FindLog(st.logs, req.patientId, req.date);
      if i >= 0 {
        assert forall j :: 0 <= j < |logs| ==>
          (logs[j].patientId == st.logs[j].patientId && logs[j].date == st.logs[j].date && logs[j].id == st.logs[j].id);
      } else {
        assert forall j :: 0 <= j < |st.logs| ==> logs[j] == st.logs[j];
        assert forall j :: 0 <= j < |st.logs| ==> !IsKey(logs[j], req.patientId, req.date);
      }
    }
  }

  // ---------------------------------------------------------------------------
  // get_today_log

  /**
   * The patient's log dated today, or null when there is none; 404 for a patient
   * the caller does not own. The store is never changed.
   */
  function GetTodayLog(st: State, user: int, pid: int, today: Day): (r: Result<Option<DailyLog>>)
    ensures !OwnsPatient(st, user, pid) ==> r == Err(PatientNotFound)
    ensures OwnsPatient(st, user, pid) ==> r.Ok?
    ensures r.Ok? && r.value.Some? ==> r.value.value in st.logs && IsKey(r.value.value, pid, today)
    ensures r.Ok? && r.value.None? ==> forall l :: l in st.logs ==> !IsKey(l, pid, today)
  {
    if !OwnsPatient(st, user, pid) then Err(PatientNotFound)
    else
      var i := FindLog(st.logs, pid, today);
      if i >= 0 then Ok(Some(st.logs[i])) else Ok(None)
  }

  /** Two indices that both satisfy `FindLog`'s contract are the same index. */
  lemma {:induction false} FindLogIs(logs: seq<DailyLog>, pid: int, date: Day, k: int)
    requires 0 <= k < |logs| && IsKey(logs[k], pid, date)
    requires forall j :: 0 <= j < k ==> !IsKey(logs[j], pid, date)
    ensures FindLog(logs, pid, date) == k
  {
    var r := FindLog(logs, pid, date);
    assert r != -1;
  }

  /** A log written for today is the one `get_today_log` reads back. */
  lemma {:induction false} UpsertThenReadToday(st: State, user: int, req: LogRequest)
    requires OwnsPatient(st, user, req.patientId)
    ensures var out := CreateOrUpdateLog(st, user, req);
      GetTodayLog(out.state, user, req.patientId, req.date) == Ok(Some(out.result.value))
  {
    var out := CreateOrUpdateLog(st, user, req);
    var logs := out.state.logs;
    var i := FindLog(st.logs, req.patientId, req.date);
    if i >= 0 {
      assert forall j :: 0 <= j < i ==> logs[j] == st.logs[j];
      FindLogIs(logs, req.patientId, req.date, i);
    } else {
      assert forall j :: 0 <= j < |st.logs| ==> logs[j] == st.logs[j];
      FindLogIs(logs, req.patientId, req.date, |st.logs|);
    }
  }

  // ---------------------------------------------------------------------------
  // get_logs

  const LogWindowDays: int := 90

  /** The log belongs to patient `pid` and is dated on or after `since`. */
  predicate InWindow(l: DailyLog, pid: int, since: Day)
  {
    l.patientId == pid && l.date >= since
  }

  /** The patient's logs dated on or after `since`, in store order, each as often as it is stored. */
  function Window(logs: seq<DailyLog>, pid: int, since: Day): (r: seq<DailyLog>)
    ensures forall l :: l in r <==> l in logs && l.patientId == pid && l.date >= since
    ensures forall l :: multiset(r)[l] == (if InWindow(l, pid, since) then multiset(logs)[l] else 0)
    ensures |r| <= |logs|
  {
    if |logs| == 0 then []
    else
      var rest := Window(logs[1..], pid, since);
      assert logs == [logs[0]] + logs[1..];
      assert forall l :: l in logs <==> l == logs[0] || l in logs[1..];
      if InWindow(logs[0], pid, since) then [logs[0]] + rest else rest
  }

  /** Newest first: dates never increase along the sequence. */
  predicate SortedByDateDesc(s: seq<DailyLog>)
  {
    forall i, j :: 0 <= i < j < |s| ==> s[i].date >= s[j].date
  }

  function InsertByDate(l: DailyLog, s: seq<DailyLog>): (r: seq<DailyLog>)
    requires SortedByDateDesc(s)
    ensures SortedByDateDesc(r)
    ensures multiset(r) == multiset(s) + multiset{l}
    ensures forall x :: x in r ==> x == l || x in s
    decreases |s|
  {
    if |s| == 0 then [l]
    else if l.date >= s[0].date then [l] + s
    else
      var rest := InsertByDate(l, s[1..]);
      assert s == [s[0]] + s[1..];
      BelowHead(l, s, rest);
      ConsSorted(s[0], rest);
      [s[0]] + rest
  }

  /** What is inserted into the tail of a newest-first list below its head stays no newer than the head. */
  lemma {:induction false} BelowHead(l: DailyLog, s: seq<DailyLog>, rest: seq<DailyLog>)
    requires SortedByDateDesc(s) && |s| > 0 && l.date < s[0].date
    requires forall x :: x in rest ==> x == l || x in s[1..]
    ensures forall k :: 0 <= k < |rest| ==> rest[k].date <= s[0].date
  {
    forall k | 0 <= k < |rest| ensures rest[k].date <= s[0].date {
      var x := rest[k];
      assert x in rest;
      if x != l {
        var m :| 0 <= m < |s[1..]| && s[1..][m] == x;
        assert s[m + 1] == x;
      }
    }
  }

  lemma {:induction false} ConsSorted(h: DailyLog, rest: seq<DailyLog>)
    requires SortedByDateDesc(rest)
    requires forall k :: 0 <= k < |rest| ==> rest[k].date <= h.date
    ensures SortedByDateDesc([h] + rest)
  {
    var r := [h] + rest;
    forall i, j | 0 <= i < j < |r| ensures r[i].date >= r[j].date {
      if i == 0 {
        assert r[j] == rest[j - 1];
      } else {
        assert r[i] == rest[i - 1] && r[j] == rest[j - 1];
      }
    }
  }

  /** Insertion sort, newest first; the order among logs of the same date is the database's choice. */
  function SortByDateDesc(s: seq<DailyLog>): (r: seq<DailyLog>)
    ensures SortedByDateDesc(r)
    ensures multiset(r) == multiset(s)
    decreases |s|
  {
    if |s| == 0 then []
    else
      assert s == [s[0]] + s[1..];
      InsertByDate(s[0], SortByDateDesc(s[1..]))
  }

  /**
   * Exactly the patient's logs of the last 90 days (dated on or after today - 90),
   * each as often as it is stored, newest first; 404 for a patient the caller does
   * not own.
   */
  function GetLogs(st: State, user: int, pid: int, today: Day): (r: Result<seq<DailyLog>>)
    ensures !OwnsPatient(st, user, pid) ==> r == Err(PatientNotFound)
    ensures OwnsPatient(st, user, pid) ==> r.Ok?
    ensures r.Ok? ==> SortedByDateDesc(r.value)
    ensures r.Ok? ==> multiset(r.value) == multiset(Window(st.logs, pid, today - LogWindowDays))
    ensures r.Ok? ==> forall l ::
                        multiset(r.value)[l] == if InWindow(l, pid, today - LogWindowDays) then multiset(st.logs)[l] else 0
    ensures r.Ok? ==> forall l :: l in r.value <==>
      l in st.logs && l.patientId == pid && l.date >= today - LogWindowDays
  {
    if !OwnsPatient(st, user, pid) then Err(PatientNotFound)
    else
      var w := Window(st.logs, pid, today - LogWindowDays);
      var sorted := SortByDateDesc(w);
      assert forall l :: l in sorted <==> l in w by {
        forall l ensures l in sorted <==> l in w {
          assert l in sorted <==> l in multiset(sorted);
          assert l in w <==> l in multiset(w);
        }
      }
      Ok(sorted)
  }

  /** For a patient the caller does not own, every log endpoint answers 404 and the store stays as it was. */
  lemma {:induction false} LogEndpointsOwnershipGuarded(st: State, user: int, pid: int, today: Day)
    requires !OwnsPatient(st, user, pid)
    ensures GetTodayLog(st, user, pid, today) == Err(PatientNotFound)
    ensures GetLogs(st, user, pid, today) == Err(PatientNotFound)
    ensures forall req: LogRequest :: req.patientId == pid ==> CreateOrUpdateLog(st, user, req).state == st
  {
  }
}

=== FILE: medications.dfy ===
/**
 * The medication endpoints: a partial update and a soft delete, both behind
 * the rule that a medication is reachable only through a patient the caller
 * looks after.
 */
module Medications {
  import opened Wrappers
  import opened Records
  import opened Store
  import Patients

  const MedicationNotFound := HttpError(NotFound, "Medication not found")

  /** The caller may touch medication `mid`: it exists and its patient is one the caller looks after. */
  predicate OwnsMedication(st: State, user: int, mid: int)
  {
    && mid in st.medications
    && st.medications[mid].patientId in st.patients
    && st.patients[st.medications[mid].patientId].caregiverId == user
  }

  /** `_get_owned_medication`: the medication, or 404 "Medication not found". */
  function OwnedMedication(st: State, user: int, mid: int): (r: Result<Medication>)
    ensures r.Ok? <==> OwnsMedication(st, user, mid)
    ensures r.Ok? ==> r.value == st.medications[mid]
    ensures r.Err? ==> r.error == MedicationNotFound
  {
    if OwnsMedication(st, user, mid) then Ok(st.medications[mid]) else Err(MedicationNotFound)
  }

  /**
   * One field of a `MedicationUpdate` body: left out of the request, or sent
   * with a value that may be an explicit null.
   */
  datatype Patch<T> = Unset | SetTo(value: Option<T>)

  datatype MedicationUpdate = MedicationUpdate(
    name: Patch<string>,
    dose: Patch<string>,
    frequency: Patch<string>,
    timeOfDay: Patch<string>,
    active: Patch<bool>)

  const NoChanges := MedicationUpdate(Unset, Unset, Unset, Unset, Unset)

  function ApplyPatch<T>(current: Option<T>, p: Patch<T>): Option<T>
  {
    match p
    case Unset => current
    case SetTo(v) => v
  }

  /**
   * Only the fields sent are written (`exclude_unset`), an explicit null
   * included; the id and the owning patient never change.
   */
  function ApplyUpdate(m: Medication, u: MedicationUpdate): (r: Medication)
    ensures r.id == m.id && r.patientId == m.patientId
    ensures u.name.Unset? ==> r.name == m.name
    ensures u.name.SetTo? ==> r.name == u.name.value
    ensures u.dose.Unset? ==> r.dose == m.dose
    ensures u.dose.SetTo? ==> r.dose == u.dose.value
    ensures u.frequency.Unset? ==> r.frequency == m.frequency
    ensures u.frequency.SetTo? ==> r.frequency == u.frequency.value
    ensures u.timeOfDay.Unset? ==> r.timeOfDay == m.timeOfDay
    ensures u.timeOfDay.SetTo? ==> r.timeOfDay == u.timeOfDay.value
    ensures u.active.Unset? ==> r.active == m.active
    ensures u.active.SetTo? ==> r.active == u.active.value
  {
    m.(name := ApplyPatch(m.name, u.name),
       dose := ApplyPatch(m.dose, u.dose),
       frequency := ApplyPatch(m.frequency, u.frequency),
       timeOfDay := ApplyPatch(m.timeOfDay, u.timeOfDay),
       active := ApplyPatch(m.active, u.active))
  }

  /** An update that sends no field changes nothing. */
  lemma {:induction false} EmptyUpdateIsIdentity(m: Medication)
    ensures ApplyUpdate(m, NoChanges) == m
  {
  }

  /** Sending the same update twice is the same as sending it once. */
  lemma {:induction false} UpdateIdempotent(m: Medication, u: MedicationUpdate)
    ensures ApplyUpdate(ApplyUpdate(m, u), u) == ApplyUpdate(m, u)
  {
  }

  /** The update sends an explicit null for at least one field. */
  predicate SendsNull(u: MedicationUpdate)
  {
    || u.name == SetTo(None) || u.dose == SetTo(None) || u.frequency == SetTo(None)
    || u.timeOfDay == SetTo(None) || u.active == SetTo(None)
  }

  /**
   * `update_medication`: 404 and no change unless the caller owns the
   * medication. Otherwise the rewritten row is committed in any case, and it
   * is returned only when `MedicationResponse` accepts it; a row left with a
   * null field is answered with a 500 although the write stays.
   */
  function UpdateMedication(st: State, user: int, mid: int, u: MedicationUpdate): (out: Step<Medication>)
    ensures !OwnsMedication(st, user, mid) ==> out == Step(Err(MedicationNotFound), st)
    ensures OwnsMedication(st, user, mid) ==>
      out.state == st.(medications := st.medications[mid := ApplyUpdate(st.medications[mid], u)])
    ensures out.result.Ok? <==> OwnsMedication(st, user, mid) && Presentable(out.state.medications[mid])
    ensures out.result.Ok? ==> out.result.value == out.state.medications[mid]
    ensures OwnsMedication(st, user, mid) && !Presentable(out.state.medications[mid]) ==>
      out.result == Err(ResponseInvalid)
  {
    match OwnedMedication(st, user, mid)
    case Err(e) => Step(Err(e), st)
    case Ok(med) =>
      var updated := ApplyUpdate(med, u);
      var st' := st.(medications := st.medications[mid := updated]);
      if Presentable(updated) then Step(Ok(updated), st') else Step(Err(ResponseInvalid), st')
  }

  /**
   * An explicit null is written to the row and the caller gets a 500: the
   * stored row is one `MedicationResponse` rejects.
   */
  lemma {:induction false} NullUpdateCommitsThenFails(st: State, user: int, mid: int, u: MedicationUpdate)
    requires OwnsMedication(st, user, mid) && SendsNull(u)
    ensures var out := UpdateMedication(st, user, mid, u);
      && out.result == Err(ResponseInvalid)
      && mid in out.state.medications
      && !Presentable(out.state.medications[mid])
  {
  }

  /**
   * After an explicit null is committed, reading the medication's patient
   * fails with a 500, and so does the caller's whole patient list.
   */
  lemma {:induction false} NullUpdateBreaksPatientReads(st: State, user: int, mid: int, u: MedicationUpdate)
    requires OwnsMedication(st, user, mid) && SendsNull(u)
    ensures var out := UpdateMedication(st, user, mid, u);
      var pid := st.medications[mid].patientId;
      && Patients.GetPatient(out.state, user, pid) == Err(ResponseInvalid)
      && Patients.GetPatients(out.state, user) == Err(ResponseInvalid)
  {
    var out := UpdateMedication(st, user, mid, u);
    var pid := st.medications[mid].patientId;
    assert out.state.medications[mid].patientId == pid;
    assert !Patients.ViewPresentable(out.state, pid);
    Patients.GetPatientAgreesWithList(out.state, user, pid);
  }

  /** An update without nulls on a presentable row succeeds and the row stays presentable. */
  lemma {:induction false} NonNullUpdateSucceeds(st: State, user: int, mid: int, u: MedicationUpdate)
    requires OwnsMedication(st, user, mid) && Presentable(st.medications[mid]) && !SendsNull(u)
    ensures UpdateMedication(st, user, mid, u).result.Ok?
  {
  }

  /** `deactivate_medication`: a soft delete that clears the `active` flag and keeps the row. */
  function DeactivateMedication(st: State, user: int, mid: int): (out: Step<string>)
    ensures !OwnsMedication(st, user, mid) ==> out == Step(Err(MedicationNotFound), st)
    ensures OwnsMedication(st, user, mid) ==>
      && out.result == Ok("Medication deactivated")
      && out.state.medications.Keys == st.medications.Keys
      && out.state.medications[mid].active == Some(false)
  {
    match OwnedMedication(st, user, mid)
    case Err(e) => Step(Err(e), st)
    case Ok(med) =>
      Step(Ok("Medication deactivated"), st.(medications := st.medications[mid := med.(active := Some(false))]))
  }

  /**
   * Deactivating writes exactly what the update sending only `active: false`
   * writes; it always answers the message, where that update answers 500 for
   * a row that already holds a null.
   */
  lemma {:induction false} DeactivateIsUpdateOfActive(st: State, user: int, mid: int)
    ensures var u := NoChanges.(active := SetTo(Some(false)));
      && DeactivateMedication(st, user, mid).state == UpdateMedication(st, user, mid, u).state
      && (DeactivateMedication(st, user, mid).result.Ok? <==> OwnsMedication(st, user, mid))
      && (UpdateMedication(st, user, mid, u).result.Ok? ==> DeactivateMedication(st, user, mid).result.Ok?)
  {
  }

  /** Deactivating twice leaves the store as deactivating once, and the second call still succeeds. */
  lemma {:induction false} DeactivateIdempotent(st: State, user: int, mid: int)
    ensures var once := DeactivateMedication(st, user, mid);
      && DeactivateMedication(once.state, user, mid).state == once.state
      && DeactivateMedication(once.state, user, mid).result == once.result
  {
    var once := DeactivateMedication(st, user, mid);
    if OwnsMedication(st, user, mid) {
      assert OwnsMedication(once.state, user, mid);
      assert once.state.medications[mid := once.state.medications[mid].(active := Some(false))] == once.state.medications;
    }
  }

  /**
   * An update changes no other medication, no patient and no log, keeps the
   * caller's ownership of the medication, and keeps a valid store valid.
   */
  lemma {:induction false} UpdateTouchesOnlyAddressed(st: State, user: int, mid: int, u: MedicationUpdate)
    requires Valid(st)
    ensures var out := UpdateMedication(st, user, mid, u);
      && out.state.patients == st.patients
      && out.state.logs == st.logs
      && out.state.medications.Keys == st.medications.Keys
      && (forall other :: other in st.medications && other != mid ==> out.state.medications[other] == st.medications[other])
      && (forall other :: OwnsMedication(out.state, user, other) <==> OwnsMedication(st, user, other))
      && Valid(out.state)
  {
  }
}

=== FILE: patients.dfy ===
/**
 * The patient endpoints: creating a patient together with its medications,
 * listing and reading the caller's patients, and adding a medication to one.
 */
module Patients {
  import opened Wrappers
  import opened Records
  import opened Store

  /** A `MedicationCreate` body: all four fields are required. */
  datatype MedicationRequest = MedicationRequest(name: string, dose: string, frequency: string, timeOfDay: string)

  /** A `PatientCreate` body; `medications` may be null or omitted (an empty list). */
  datatype PatientRequest = PatientRequest(
    name: string,
    dateOfBirth: Option<Day>,
    diagnosis: string,
    notes: Option<string>,
    medications: Option<seq<MedicationRequest>>)

  /** A `PatientResponse`: the patient with all its medications, active or not. */
  datatype PatientView = PatientView(patient: Patient, medications: map<int, Medication>)

  function ViewOf(st: State, pid: int): PatientView
    requires pid in st.patients
  {
    PatientView(st.patients[pid], MedicationsOf(st, pid))
  }

  /** A medication row built from a request; `active` takes its column default, true. */
  function NewMedication(id: int, pid: int, req: MedicationRequest): (m: Medication)
    ensures m.id == id && m.patientId == pid && m.active == Some(true)
    ensures m.name == Some(req.name) && m.dose == Some(req.dose)
    ensures m.frequency == Some(req.frequency) && m.timeOfDay == Some(req.timeOfDay)
  {
    Medication(id, pid, Some(req.name), Some(req.dose), Some(req.frequency), Some(req.timeOfDay), Some(true))
  }

  /** The ids `first`, `first + 1`, ..., one per request. */
  function IdRange(first: int, n: nat): (r: set<int>)
    ensures forall k :: k in r <==> first <= k < first + n
  {
    if n == 0 then {} else IdRange(first, n - 1) + {first + n - 1}
  }

  /**
   * Inserts one new medication per request, in order, with consecutive ids from
   * `first`, all for patient `pid`; every other entry is kept.
   */
  function AddMedications(meds: map<int, Medication>, first: int, pid: int, reqs: seq<MedicationRequest>)
    : (r: map<int, Medication>)
    ensures r.Keys == meds.Keys + IdRange(first, |reqs|)
    ensures forall i :: 0 <= i < |reqs| ==> r[first + i] == NewMedication(first + i, pid, reqs[i])
    ensures forall mid :: mid in meds && mid !in IdRange(first, |reqs|) ==> r[mid] == meds[mid]
    decreases |reqs|
  {
    if |reqs| == 0 then
      assert IdRange(first, 0) == {};
      meds
    else
      var r := AddMedications(meds[first := NewMedication(first, pid, reqs[0])], first + 1, pid, reqs[1..]);
      IdRangeSplit(first, |reqs|);
      forall i | 1 <= i < |reqs| ensures r[first + i] == NewMedication(first + i, pid, reqs[i]) {
        assert reqs[i] == reqs[1..][i - 1];
      }
      r
  }

  lemma {:induction false} IdRangeSplit(first: int, n: nat)
    requires n > 0
    ensures IdRange(first, n) == {first} + IdRange(first + 1, n - 1)
  {
  }

  /**
   * `create_patient`: a new patient owned by the caller under the next patient id,
   * and its medications from the request (none when the list is null).
   */
  function CreatePatient(st: State, user: int, req: PatientRequest): (out: Step<PatientView>)
    ensures out.result.Ok?
    ensures out.result.value.patient ==
      Patient(st.nextPatientId, req.name, req.dateOfBirth, req.diagnosis, req.notes, user)
    ensures out.state.patients == st.patients[st.nextPatientId := out.result.value.patient]
    ensures out.state.logs == st.logs
    ensures out.state.nextPatientId == st.nextPatientId + 1
    ensures out.state.nextMedicationId == st.nextMedicationId + |OrEmpty(req.medications)|
    ensures out.state.medications ==
      AddMedications(st.medications, st.nextMedicationId, st.nextPatientId, OrEmpty(req.medications))
    ensures st.nextPatientId in out.state.patients && out.result.value == ViewOf(out.state, st.nextPatientId)
  {
    var pid := st.nextPatientId;
    var patient := Patient(pid, req.name, req.dateOfBirth, req.diagnosis, req.notes, user);
    var reqs := OrEmpty(req.medications);
    var st' := st.(
      patients := st.patients[pid := patient],
      medications := AddMedications(st.medications, st.nextMedicationId, pid, reqs),
      nextPatientId := pid + 1,
      nextMedicationId := st.nextMedicationId + |reqs|);
    Step(Ok(ViewOf(st', pid)), st')
  }

  /**
   * `m` holds exactly one medication per request, in order, under the ids
   * `first`, `first + 1`, ..., each for patient `pid` and active.
   */
  predicate ExactlyAdded(m: map<int, Medication>, first: int, pid: int, reqs: seq<MedicationRequest>)
  {
    && m.Keys == IdRange(first, |reqs|)
    && forall i :: 0 <= i < |reqs| ==> first + i in m && m[first + i] == NewMedication(first + i, pid, reqs[i])
  }

  /** No medication row belongs to patient `pid`; in a valid store this holds for the next patient id. */
  predicate NoRowsFor(st: State, pid: int)
  {
    forall mid :: mid in st.medications ==> st.medications[mid].patientId != pid
  }

  /**
   * When no row belongs to the next patient id yet (as in any valid store), the
   * rows the new patient owns in the stored medications table, and so the
   * medications in the response, are exactly one new, active medication per
   * request entry, in order, under consecutive fresh ids.
   */
  lemma {:induction false} CreatePatientMedications(st: State, user: int, req: PatientRequest)
    requires NoRowsFor(st, st.nextPatientId)
    ensures ExactlyAdded(MedicationsOf(CreatePatient(st, user, req).state, st.nextPatientId),
      st.nextMedicationId, st.nextPatientId, OrEmpty(req.medications))
    ensures CreatePatient(st, user, req).result.value.medications ==
      MedicationsOf(CreatePatient(st, user, req).state, st.nextPatientId)
  {
    var out := CreatePatient(st, user, req);
    assert out.result.value.medications == MedicationsOf(out.state, st.nextPatientId);
    MedicationsOfNewPatient(st.medications, st.nextMedicationId, st.nextPatientId, OrEmpty(req.medications), out.state);
  }

  /** The medications of a patient no existing row belongs to are exactly the ones just added. */
  lemma {:induction false} MedicationsOfNewPatient(
    meds: map<int, Medication>, first: int, pid: int, reqs: seq<MedicationRequest>, st: State)
    requires forall mid :: mid in meds ==> meds[mid].patientId != pid
    requires st.medications == AddMedications(meds, first, pid, reqs)
    ensures ExactlyAdded(MedicationsOf(st, pid), first, pid, reqs)
  {
    var r := MedicationsOf(st, pid);
    forall mid | mid in IdRange(first, |reqs|) ensures mid in r {
      NewEntryAt(meds, first, pid, reqs, mid);
    }
  }

  /** The entry `AddMedications` stores under one of the new ids. */
  lemma {:induction false} NewEntryAt(meds: map<int, Medication>, first: int, pid: int, reqs: seq<MedicationRequest>, mid: int)
    requires mid in IdRange(first, |reqs|)
    ensures var r := AddMedications(meds, first, pid, reqs);
      mid in r && r[mid] == NewMedication(mid, pid, reqs[mid - first])
  {
    var i := mid - first;
    assert first + i == mid;
  }

  /** Every entry under a new id is the new patient's, and carries its id. */
  lemma {:induction false} NewEntriesAreNew(st: State, user: int, req: PatientRequest)
    ensures var meds := CreatePatient(st, user, req).state.medications;
      forall mid :: mid in meds && mid in IdRange(st.nextMedicationId, |OrEmpty(req.medications)|) ==>
        meds[mid].id == mid && meds[mid].patientId == st.nextPatientId
  {
    var reqs := OrEmpty(req.medications);
    forall mid | mid in IdRange(st.nextMedicationId, |reqs|) {
      NewEntryAt(st.medications, st.nextMedicationId, st.nextPatientId, reqs, mid);
    }
  }

  /** Creating a patient changes no existing medication and keeps a valid store valid. */
  lemma {:induction false} CreatePatientKeepsValid(st: State, user: int, req: PatientRequest)
    requires Valid(st)
    ensures var out := CreatePatient(st, user, req);
      && (forall mid :: mid in st.medications ==> out.state.medications[mid] == st.medications[mid])
      && Valid(out.state)
  {
    var out := CreatePatient(st, user, req);
    var reqs := OrEmpty(req.medications);
    assert forall mid :: mid in st.medications ==> mid !in IdRange(st.nextMedicationId, |reqs|);
    NewEntriesAreNew(st, user, req);
    var meds := out.state.medications;
    forall mid | mid in meds
      ensures meds[mid].id == mid && mid < out.state.nextMedicationId && meds[mid].patientId < out.state.nextPatientId
    {
      if mid !in IdRange(st.nextMedicationId, |reqs|) {
        assert meds[mid] == st.medications[mid];
      }
    }
  }

  /** A null medication list and an empty one create the same patient with no medications. */
  lemma {:induction false} NullMedicationsAddNone(st: State, user: int, req: PatientRequest)
    requires req.medications.None? || req.medications == Some([])
    ensures CreatePatient(st, user, req).state.medications == st.medications
  {
  }

  /** Every medication of patient `pid` is one `MedicationResponse` accepts, so `PatientResponse` accepts the patient. */
  predicate ViewPresentable(st: State, pid: int)
  {
    forall mid :: mid in st.medications && st.medications[mid].patientId == pid ==> Presentable(st.medications[mid])
  }

  /**
   * `get_patients`: exactly the patients whose caregiver is the caller, each
   * with its medications; a 500 when any of them holds a medication row the
   * response schema rejects.
   */
  function GetPatients(st: State, user: int): (r: Result<map<int, PatientView>>)
    ensures r.Ok? <==> forall pid :: OwnsPatient(st, user, pid) ==> ViewPresentable(st, pid)
    ensures r.Err? ==> r.error == ResponseInvalid
    ensures r.Ok? ==> forall pid :: pid in r.value <==> pid in st.patients && st.patients[pid].caregiverId == user
    ensures r.Ok? ==> forall pid :: pid in r.value ==> r.value[pid].patient == st.patients[pid]
    ensures r.Ok? ==> forall pid :: pid in r.value ==> r.value[pid].medications == MedicationsOf(st, pid)
  {
    if forall pid | pid in st.patients && st.patients[pid].caregiverId == user :: ViewPresentable(st, pid) then
      Ok(map pid | pid in st.patients && st.patients[pid].caregiverId == user :: ViewOf(st, pid))
    else Err(ResponseInvalid)
  }

  /**
   * `get_patient`: 404 unless the patient exists and the caller is its
   * caregiver; a 500 when one of its medication rows fails the response schema.
   */
  function GetPatient(st: State, user: int, pid: int): (r: Result<PatientView>)
    ensures r.Err? <==> pid !in st.patients || st.patients[pid].caregiverId != user || !ViewPresentable(st, pid)
    ensures !OwnsPatient(st, user, pid) ==> r == Err(PatientNotFound)
    ensures OwnsPatient(st, user, pid) && !ViewPresentable(st, pid) ==> r == Err(ResponseInvalid)
    ensures r.Ok? ==> r.value.patient == st.patients[pid] && r.value.patient.caregiverId == user
    ensures r.Ok? ==> r.value.medications == MedicationsOf(st, pid)
  {
    match OwnedPatient(st, user, pid)
    case Err(e) => Err(e)
    case Ok(p) => if ViewPresentable(st, pid) then Ok(ViewOf(st, pid)) else Err(ResponseInvalid)
  }

  /**
   * When the list succeeds, a patient is readable on its own exactly when it is
   * in the list, with the same content; a patient that fails on its own makes
   * the whole list fail.
   */
  lemma {:induction false} GetPatientAgreesWithList(st: State, user: int, pid: int)
    ensures GetPatients(st, user).Ok? ==>
      && (GetPatient(st, user, pid).Ok? <==> pid in GetPatients(st, user).value)
      && (GetPatient(st, user, pid).Ok? ==> GetPatient(st, user, pid).value == GetPatients(st, user).value[pid])
    ensures GetPatient(st, user, pid) == Err(ResponseInvalid) ==> GetPatients(st, user) == Err(ResponseInvalid)
  {
  }

  /**
   * `add_medication`: 404 and no change for a patient the caller does not own;
   * otherwise one new active medication for that patient under the next id.
   */
  function AddMedication(st: State, user: int, pid: int, req: MedicationRequest): (out: Step<Medication>)
    ensures !OwnsPatient(st, user, pid) ==> out == Step(Err(PatientNotFound), st)
    ensures OwnsPatient(st, user, pid) ==>
      && out.result == Ok(NewMedication(st.nextMedicationId, pid, req))
      && out.state.medications == st.medications[st.nextMedicationId := out.result.value]
      && out.state.nextMedicationId == st.nextMedicationId + 1
    ensures out.state.patients == st.patients && out.state.logs == st.logs
  {
    if !OwnsPatient(st, user, pid) then Step(Err(PatientNotFound), st)
    else
      var med := NewMedication(st.nextMedicationId, pid, req);
      Step(Ok(med), st.(medications := st.medications[med.id := med], nextMedicationId := med.id + 1))
  }

  /** In a valid store, adding a medication keeps every existing one and the store invariant. */
  lemma {:induction false} AddMedicationKeepsExisting(st: State, user: int, pid: int, req: MedicationRequest)
    requires Valid(st)
    ensures var out := AddMedication(st, user, pid, req);
      && (forall mid :: mid in st.medications ==> mid in out.state.medications && out.state.medications[mid] == st.medications[mid])
      && |out.state.medications| == |st.medications| + (if OwnsPatient(st, user, pid) then 1 else 0)
      && Valid(out.state)
  {
    if OwnsPatient(st, user, pid) {
      assert st.nextMedicationId !in st.medications;
    }
  }
}

=== FILE: records.dfy ===
/** Optional values and the HTTP error results every handler can return. */
module Wrappers {

  /** A nullable column or an optional request field. */
  datatype Option<+T> = None | Some(value: T)

  /** An `HTTPException`: status code and detail text. */
  datatype HttpError = HttpError(status: int, detail: string)

  /** What a handler answers: a response body or an HTTP error. */
  datatype Result<+T> = Ok(value: T) | Err(error: HttpError)

  const NotFound: int := 404

  /**
   * A response that fails its `response_model` validation: FastAPI answers
   * 500, after the handler has already committed its writes.
   */
  const ResponseInvalid: HttpError := HttpError(500, "Internal Server Error")
}

/** The record shapes of the database tables and of the request bodies they are built from. */
module Records {
  import opened Wrappers

  /** A calendar date as a day number; "today" is always passed in. */
  type Day = int

  datatype Patient = Patient(
    id: int,
    name: string,
    dateOfBirth: Option<Day>,
    diagnosis: string,
    notes: Option<string>,
    caregiverId: int)

  /** Every column other than the keys is nullable: an update may set any of them to null. */
  datatype Medication = Medication(
    id: int,
    patientId: int,
    name: Option<string>,
    dose: Option<string>,
    frequency: Option<string>,
    timeOfDay: Option<string>,
    active: Option<bool>)

  /**
   * A row `MedicationResponse` accepts: it declares name, dose, frequency,
   * time of day and the active flag as required, so none of them may be null.
   */
  predicate Presentable(m: Medication)
  {
    m.name.Some? && m.dose.Some? && m.frequency.Some? && m.timeOfDay.Some? && m.active.Some?
  }

  datatype MedicationTaken = MedicationTaken(medicationId: int, taken: bool, timeTaken: Option<string>)

  /** A symptom with its severity (1 to 10 by convention; not enforced). */
  datatype Symptom = Symptom(name: string, severity: int)

  datatype SideEffect = SideEffect(name: string, severity: int)

  datatype MedicationSideEffect = MedicationSideEffect(
    medicationId: int,
    medicationName: string,
    sideEffects: seq<SideEffect>)

  datatype Activity = Activity(kind: string, durationMinutes: Option<int>)

  /** The four lifestyle flags of a daily log. */
  datatype Lifestyle = Lifestyle(smoked: bool, alcohol: bool, stressed: bool, ateWell: bool)

  /** A lifestyle object whose flags were all omitted: each flag defaults to false. */
  const DefaultLifestyle: Lifestyle := Lifestyle(false, false, false, false)

  /** The nine content columns of a daily log, each nullable. */
  datatype LogContent = LogContent(
    medicationsTaken: Option<seq<MedicationTaken>>,
    symptoms: Option<seq<Symptom>>,
    medicationSideEffects: Option<seq<MedicationSideEffect>>,
    sleepHours: Option<real>,
    moodScore: Option<int>,
    waterIntakeOz: Option<real>,
    activities: Option<seq<Activity>>,
    lifestyle: Option<Lifestyle>,
    notes: Option<string>)

  datatype DailyLog = DailyLog(
    id: int,
    patientId: int,
    loggedBy: int,
    date: Day,
    content: LogContent)

  /** The entries of a nullable JSON list column; null reads as the empty list. */
  function OrEmpty<T>(xs: Option<seq<T>>): seq<T>
  {
    match xs
    case None => []
    case Some(s) => s
  }
}

/** The database as an immutable value, and the caregiver-ownership guard. */
module Store {
  import opened Wrappers
  import opened Records

  /**
   * Patients and medications keyed by id; daily logs in insertion order, so
   * that "the first matching row" is well defined. The counters are the next
   * ids the database's auto-increment would hand out.
   */
  datatype State = State(
    patients: map<int, Patient>,
    medications: map<int, Medication>,
    logs: seq<DailyLog>,
    nextPatientId: int,
    nextMedicationId: int,
    nextLogId: int)

  /** What a handler returns together with the state after it. */
  datatype Step<+T> = Step(result: Result<T>, state: State)

  /** Keys agree with ids, every id is below its counter, log ids are distinct. */
  predicate Valid(st: State)
  {
    && (forall pid :: pid in st.patients ==> st.patients[pid].id == pid && pid < st.nextPatientId)
    && (forall mid :: mid in st.medications ==>
          && st.medications[mid].id == mid
          && mid < st.nextMedicationId
          && st.medications[mid].patientId < st.nextPatientId)
    && (forall i :: 0 <= i < |st.logs| ==> st.logs[i].id < st.nextLogId)
    && (forall i, j :: 0 <= i < j < |st.logs| ==> st.logs[i].id != st.logs[j].id)
  }

  const PatientNotFound: HttpError := HttpError(NotFound, "Patient not found")

  /** The guard of every patient-scoped endpoint: the patient exists and `user` is its caregiver. */
  predicate OwnsPatient(st: State, user: int, pid: int)
  {
    pid in st.patients && st.patients[pid].caregiverId == user
  }

  /** The patient record if `user` owns it, otherwise a 404. */
  function OwnedPatient(st: State, user: int, pid: int): (r: Result<Patient>)
    ensures r.Ok? <==> OwnsPatient(st, user, pid)
    ensures r.Ok? ==> r.value == st.patients[pid] && r.value.caregiverId == user
    ensures r.Err? ==> r.error == PatientNotFound
  {
    if OwnsPatient(st, user, pid) then Ok(st.patients[pid]) else Err(PatientNotFound)
  }

  /** The medications of a patient, active or not, keyed by id. */
  function MedicationsOf(st: State, pid: int): (r: map<int, Medication>)
    ensures forall mid :: mid in r <==> mid in st.medications && st.medications[mid].patientId == pid
    ensures forall mid :: mid in r ==> r[mid] == st.medications[mid]
  {
    map mid | mid in st.medications && st.medications[mid].patientId == pid :: st.medications[mid]
  }
}

=== FILE: summary.dfy ===
/**
 * The server-side part of summary generation: the ownership guard, the 30-day
 * window of logs in chronological order, the patient's active medications, and
 * every statistic handed to the language model. The model call itself, the
 * prompt text and the parsing of the reply are outside this module; the reply
 * cleaning before parsing is in `Fence`.
 */
module Summary {
  import opened Wrappers
  import opened Records
  import opened Store
  import opened Adherence
  import opened Aggregates
  import Logs
  import Medications

  const SummaryWindowDays: int := 30

  const NoRecentLogs: HttpError := HttpError(NotFound, "No logs found for the last 30 days")

  // ---------------------------------------------------------------------------
  // The window of logs

  /** Oldest first: dates never decrease along the sequence. */
  predicate SortedByDateAsc(s: seq<DailyLog>)
  {
    forall i, j :: 0 <= i < j < |s| ==> s[i].date <= s[j].date
  }

  function Reverse<T>(s: seq<T>): (r: seq<T>)
    ensures |r| == |s|
    ensures forall i :: 0 <= i < |s| ==> r[i] == s[|s| - 1 - i]
    decreases |s|
  {
    if |s| == 0 then [] else Reverse(s[1..]) + [s[0]]
  }

  lemma {:induction false} ReverseKeepsMultiset<T>(s: seq<T>)
    ensures multiset(Reverse(s)) == multiset(s)
    decreases |s|
  {
    if |s| > 0 {
      ReverseKeepsMultiset(s[1..]);
      assert s == [s[0]] + s[1..];
    }
  }

  /**
   * The logs the summary is built from: the patient's logs dated on or after
   * `today - 30`, each as often as it is stored, oldest first.
   */
  function RecentLogs(st: State, pid: int, today: Day): (r: seq<DailyLog>)
    ensures SortedByDateAsc(r)
    ensures multiset(r) == multiset(Logs.Window(st.logs, pid, today - SummaryWindowDays))
    ensures forall l ::
              multiset(r)[l] == if Logs.InWindow(l, pid, today - SummaryWindowDays) then multiset(st.logs)[l] else 0
    ensures forall l :: l in r <==> l in st.logs && l.patientId == pid && l.date >= today - SummaryWindowDays
  {
    var w := Logs.Window(st.logs, pid, today - SummaryWindowDays);
    var desc := Logs.SortByDateDesc(w);
    var r := Reverse(desc);
    ReverseKeepsMultiset(desc);
    assert forall l :: l in r <==> l in w by {
      forall l ensures l in r <==> l in w {
        assert l in r <==> l in multiset(r);
        assert l in w <==> l in multiset(w);
      }
    }
    r
  }

  /** The window is empty exactly when the patient has no log dated on or after `today - 30`. */
  lemma {:induction false} RecentLogsEmptyIff(st: State, pid: int, today: Day)
    ensures |RecentLogs(st, pid, today)| == 0 <==>
      forall i :: 0 <= i < |st.logs| ==> st.logs[i].patientId != pid || st.logs[i].date < today - SummaryWindowDays
  {
    var r := RecentLogs(st, pid, today);
    if |r| > 0 {
      assert r[0] in r;
      var i :| 0 <= i < |st.logs| && st.logs[i] == r[0];
    } else {
      forall i | 0 <= i < |st.logs| ensures st.logs[i].patientId != pid || st.logs[i].date < today - SummaryWindowDays {
        assert st.logs[i] in st.logs;
        assert st.logs[i] !in r;
      }
    }
  }

  /** Appending a log of another patient, or one older than the window, leaves the window as it was. */
  lemma {:induction false} WindowIgnoresAppendOutside(logs: seq<DailyLog>, l: DailyLog, pid: int, since: Day)
    requires l.patientId != pid || l.date < since
    ensures Logs.Window(logs + [l], pid, since) == Logs.Window(logs, pid, since)
    decreases |logs|
  {
    if |logs| == 0 {
      assert logs + [l] == [l];
      assert [l][1..] == [];
    } else {
      assert (logs + [l])[1..] == logs[1..] + [l];
      WindowIgnoresAppendOutside(logs[1..], l, pid, since);
    }
  }

  // ---------------------------------------------------------------------------
  // The active medications

  /**
   * Some element of a non-empty set. The witness is named by a quantifier
   * first, so that the choice below has an element to match on.
   */
  lemma {:induction false} Pick(s: set<int>) returns (x: int)
    requires s != {}
    ensures x in s
  {
    if forall y: int :: y !in s {
      assert false;
    }
    x :| x in s;
  }

  predicate IsMin(s: set<int>, k: int)
  {
    k in s && forall j :: j in s ==> k <= j
  }

  /** Every non-empty finite set of integers has a least element. */
  lemma {:induction false} MinExists(s: set<int>)
    requires s != {}
    ensures exists k :: IsMin(s, k)
    decreases |s|
  {
    var x := Pick(s);
    var rest := s - {x};
    assert forall j :: j in s ==> j == x || j in rest;
    if rest == {} {
      assert IsMin(s, x);
    } else {
      MinExists(rest);
      var m :| IsMin(rest, m);
      if x < m {
        assert IsMin(s, x);
      } else {
        assert IsMin(s, m);
      }
    }
  }

  function MinOfSet(s: set<int>): (k: int)
    requires s != {}
    ensures IsMin(s, k)
  {
    MinExists(s);
    var k :| IsMin(s, k);
    k
  }

  /** The elements of a finite set of ids in increasing order. */
  function SortedIds(s: set<int>): (r: seq<int>)
    ensures forall k :: k in r <==> k in s
    ensures forall i, j :: 0 <= i < j < |r| ==> r[i] < r[j]
    decreases |s|
  {
    if s == {} then []
    else
      var k := MinOfSet(s);
      [k] + SortedIds(s - {k})
  }

  /** The ids of the patient's medications whose `active` column is true (not false, not null). */
  function ActiveIds(st: State, pid: int): set<int>
  {
    set mid | mid in st.medications && st.medications[mid].patientId == pid && st.medications[mid].active == Some(true)
  }

  /**
   * The rows the active-medication query returns, in id order: each is an
   * active medication of the patient, and in a valid store they are exactly
   * the rows under `ActiveIds`, with distinct ids.
   */
  function ActiveMedications(st: State, pid: int): (r: seq<Medication>)
    ensures forall i :: 0 <= i < |r| ==> r[i].patientId == pid && r[i].active == Some(true)
    ensures Valid(st) ==> Ids(r) == ActiveIds(st, pid)
    ensures Valid(st) ==> forall i :: 0 <= i < |r| ==> r[i].id in st.medications && st.medications[r[i].id] == r[i]
    ensures Valid(st) ==> forall i, j :: 0 <= i < j < |r| ==> r[i].id < r[j].id
  {
    var ids := SortedIds(ActiveIds(st, pid));
    assert forall i :: 0 <= i < |ids| ==> ids[i] in ActiveIds(st, pid);
    var r := seq(|ids|, i requires 0 <= i < |ids| => st.medications[ids[i]]);
    if Valid(st) then
      RowsCarryIds(st, ids, r, ActiveIds(st, pid));
      r
    else r
  }

  /** In a valid store the rows looked up by a list of ids carry those ids, in order. */
  lemma {:induction false} RowsCarryIds(st: State, ids: seq<int>, r: seq<Medication>, s: set<int>)
    requires Valid(st)
    requires |r| == |ids|
    requires forall i :: 0 <= i < |ids| ==> ids[i] in st.medications && r[i] == st.medications[ids[i]]
    requires forall k :: k in ids <==> k in s
    ensures forall i :: 0 <= i < |r| ==> r[i].id == ids[i]
    ensures Ids(r) == s
  {
    assert forall i :: 0 <= i < |r| ==> r[i].id == ids[i];
    forall mid | mid in s ensures mid in Ids(r) {
      var i :| 0 <= i < |ids| && ids[i] == mid;
      assert r[i] in r;
    }
  }

  // ---------------------------------------------------------------------------
  // The statistics

  /** Everything the server computes from the window before it asks for a summary. */
  datatype SummaryStats = SummaryStats(
    adherence: map<int, Stat>,
    logCount: nat,
    averageSleep: Option<real>,
    averageMood: Option<real>,
    averageWater: Option<real>,
    symptomAverages: map<string, SymptomStat>,
    activityCounts: map<string, nat>,
    sideEffectCounts: map<string, map<string, nat>>,
    lifestyleTotals: LifestyleTotals)

  /**
   * `a` is the average of column `col` over the logs: none when no log has the
   * column, otherwise the column's total over the logs that have it divided by
   * their number.
   */
  predicate AverageOf(a: Option<real>, logs: seq<DailyLog>, col: Column)
  {
    && (a.None? <==> forall i :: 0 <= i < |logs| ==> ValueOf(logs[i].content, col).None?)
    && (a.Some? ==> CountSet(logs, col) > 0 && a.value == TotalSet(logs, col) / (CountSet(logs, col) as real))
  }

  /**
   * `a` is the adherence of the logs against the medications: one entry per
   * medication id, with that medication's name, the number of log entries
   * naming it, the number with taken set (never more), and the percentage
   * they give.
   */
  ghost predicate AdherenceOf(a: map<int, Stat>, logs: seq<DailyLog>, meds: seq<Medication>)
  {
    && a.Keys == Ids(meds)
    && forall mid :: mid in a ==>
         && a[mid].name == NameOf(meds, mid)
         && a[mid].daysLogged == CountLogged(logs, mid)
         && a[mid].daysTaken == CountTaken(logs, mid)
         && a[mid].daysTaken <= a[mid].daysLogged
         && a[mid].percentage == Percentage(a[mid].daysTaken, a[mid].daysLogged)
  }

  /** `m` maps each occurring symptom name, and only those, to a description of its severities. */
  ghost predicate SymptomStatsOf(m: map<string, SymptomStat>, logs: seq<DailyLog>)
  {
    && m.Keys == SymptomNames(logs)
    && forall n :: n in m ==> Describes(m[n], Scores(logs, n))
  }

  /** `m` maps each occurring activity type, and only those, to its number of occurrences. */
  ghost predicate ActivityCountsOf(m: map<string, nat>, logs: seq<DailyLog>)
  {
    && (forall t :: t in m <==> t in ActivityKinds(logs))
    && forall t :: t in m ==> m[t] == Count(ActivityKinds(logs), t)
  }

  /**
   * `m` holds each occurring (medication name, side effect) pair, and only
   * those, with its number of occurrences, and no medication name without one.
   */
  ghost predicate SideEffectCountsOf(m: map<string, map<string, nat>>, logs: seq<DailyLog>)
  {
    && (forall a, b :: a in m && b in m[a] <==> (a, b) in SideEffectPairs(logs))
    && (forall a, b :: a in m && b in m[a] ==> m[a][b] == Count(SideEffectPairs(logs), (a, b)))
    && forall a :: a in m ==> exists b :: (a, b) in SideEffectPairs(logs)
  }

  /**
   * The statistics of a window of logs against a list of medications: the
   * number of logs, adherence per medication id (name, counts and
   * percentage), the three column averages, a description of each symptom's
   * severities, and the occurrence counts of activities, side effects and
   * lifestyle flags.
   */
  function StatsOf(logs: seq<DailyLog>, meds: seq<Medication>): (r: SummaryStats)
    ensures r.logCount == |logs|
    ensures AdherenceOf(r.adherence, logs, meds)
    ensures AverageOf(r.averageSleep, logs, SleepHours)
    ensures AverageOf(r.averageMood, logs, MoodScore)
    ensures AverageOf(r.averageWater, logs, WaterIntake)
    ensures SymptomStatsOf(r.symptomAverages, logs)
    ensures ActivityCountsOf(r.activityCounts, logs)
    ensures SideEffectCountsOf(r.sideEffectCounts, logs)
    ensures forall f :: TotalOf(r.lifestyleTotals, f) == LogsWithFlag(logs, f)
  {
    var adherence := CalculateAdherence(logs, meds);
    assert AdherenceOf(adherence, logs, meds);
    var symptoms := SymptomAverages(logs);
    assert SymptomStatsOf(symptoms, logs) by {
      forall n | n in symptoms ensures Describes(symptoms[n], Scores(logs, n)) {
        SymptomAveragesAt(logs, n);
      }
    }
    var activities := ActivityCounts(logs);
    assert ActivityCountsOf(activities, logs);
    var sideEffects := SideEffectCounts(logs);
    assert SideEffectCountsOf(sideEffects, logs);
    SummaryStats(
      adherence,
      |logs|,
      Average(logs, SleepHours),
      Average(logs, MoodScore),
      Average(logs, WaterIntake),
      symptoms,
      activities,
      sideEffects,
      LifestyleTotalsOf(logs))
  }

  /**
   * `generate_summary` up to the model call: 404 for a patient the caller does
   * not own, 404 when the patient has no log in the window; otherwise the
   * statistics of the window against the patient's active medications.
   */
  function GenerateSummaryStats(st: State, user: int, pid: int, today: Day): (r: Result<SummaryStats>)
    ensures !OwnsPatient(st, user, pid) ==> r == Err(PatientNotFound)
    ensures OwnsPatient(st, user, pid) && |RecentLogs(st, pid, today)| == 0 ==> r == Err(NoRecentLogs)
    ensures r.Ok? <==> OwnsPatient(st, user, pid) && |RecentLogs(st, pid, today)| > 0
    ensures r.Ok? ==> r.value.logCount == |RecentLogs(st, pid, today)| > 0
    ensures r.Ok? ==> r.value == StatsOf(RecentLogs(st, pid, today), ActiveMedications(st, pid))
  {
    if !OwnsPatient(st, user, pid) then Err(PatientNotFound)
    else
      var logs := RecentLogs(st, pid, today);
      if |logs| == 0 then Err(NoRecentLogs)
      else Ok(StatsOf(logs, ActiveMedications(st, pid)))
  }

  /**
   * In a valid store, adherence over any logs against the patient's active
   * medications has exactly the active ids as keys, each under its own name.
   */
  lemma {:induction false} AdherenceOfActive(st: State, pid: int, logs: seq<DailyLog>)
    requires Valid(st)
    ensures var a := CalculateAdherence(logs, ActiveMedications(st, pid));
      && a.Keys == ActiveIds(st, pid)
      && forall mid :: mid in a ==> a[mid].name == st.medications[mid].name
  {
    var meds := ActiveMedications(st, pid);
    var a := CalculateAdherence(logs, meds);
    forall mid | mid in a ensures a[mid].name == st.medications[mid].name {
      var m :| m in meds && m.id == mid;
      var k :| 0 <= k < |meds| && meds[k] == m;
      NameOfDistinct(meds, k);
    }
  }

  /**
   * In a valid store a summary reports adherence for exactly the patient's
   * active medications, each under its own name, counting the entries in the
   * window that name it.
   */
  lemma {:induction false} SummaryAdherenceCoversActive(st: State, user: int, pid: int, today: Day)
    requires Valid(st)
    requires GenerateSummaryStats(st, user, pid, today).Ok?
    ensures var a := GenerateSummaryStats(st, user, pid, today).value.adherence;
      && a.Keys == ActiveIds(st, pid)
      && forall mid :: mid in a ==>
           && a[mid].name == st.medications[mid].name
           && a[mid].daysLogged == CountLogged(RecentLogs(st, pid, today), mid)
           && a[mid].daysTaken == CountTaken(RecentLogs(st, pid, today), mid)
  {
    var logs := RecentLogs(st, pid, today);
    assert GenerateSummaryStats(st, user, pid, today).value.adherence == CalculateAdherence(logs, ActiveMedications(st, pid));
    AdherenceOfActive(st, pid, logs);
  }

  /** After `deactivate_medication`, the medication no longer appears in its patient's summary. */
  lemma {:induction false} DeactivatedMedicationLeavesSummary(st: State, user: int, mid: int, today: Day)
    requires Valid(st)
    requires mid in st.medications
    ensures var out := Medications.DeactivateMedication(st, user, mid);
      var r := GenerateSummaryStats(out.state, user, st.medications[mid].patientId, today);
      r.Ok? ==> mid !in r.value.adherence
  {
    var pid := st.medications[mid].patientId;
    var out := Medications.DeactivateMedication(st, user, mid);
    if GenerateSummaryStats(out.state, user, pid, today).Ok? {
      assert out.state.patients == st.patients;
      DeactivateLeavesActive(st, user, mid);
      SummaryAdherenceCoversActive(out.state, user, pid, today);
    }
  }

  /** Deactivating an owned medication keeps the store valid and takes it out of its patient's active ids. */
  lemma {:induction false} DeactivateLeavesActive(st: State, user: int, mid: int)
    requires Valid(st)
    requires Medications.OwnsMedication(st, user, mid)
    ensures var out := Medications.DeactivateMedication(st, user, mid);
      Valid(out.state) && mid !in ActiveIds(out.state, st.medications[mid].patientId)
  {
    var out := Medications.DeactivateMedication(st, user, mid);
    assert out.state == st.(medications := st.medications[mid := st.medications[mid].(active := Some(false))]);
  }

  /** A log of another patient, or one older than the window, does not change the summary. */
  lemma {:induction false} SummaryIgnoresLogOutsideWindow(st: State, user: int, pid: int, today: Day, l: DailyLog)
    requires l.patientId != pid || l.date < today - SummaryWindowDays
    ensures GenerateSummaryStats(st.(logs := st.logs + [l]), user, pid, today) == GenerateSummaryStats(st, user, pid, today)
  {
    WindowIgnoresAppendOutside(st.logs, l, pid, today - SummaryWindowDays);
  }

  /** The summary counts one log per stored log in the window: the same as the 30-day slice of `get_logs`. */
  lemma {:induction false} SummaryCountsWindow(st: State, user: int, pid: int, today: Day)
    requires GenerateSummaryStats(st, user, pid, today).Ok?
    ensures GenerateSummaryStats(st, user, pid, today).value.logCount ==
      |Logs.Window(st.logs, pid, today - SummaryWindowDays)|
  {
    var r := RecentLogs(st, pid, today);
    assert |multiset(r)| == |r|;
  }
}
